=== FILE: README.md ===
# PyText core in Dafny

PyText is a small Tkinter text editor in one script, `PyText.py`. This
project models the three pieces of logic inside it that do not depend on the
widget, and proves properties of them:

- **The edit log** (`edit_log.dfy`, `keys.dfy`). An edit is an
  `(action, index, chars)` triple. The handlers treat it as follows:
  - `add_edit_state` pushes an edit on the undo list and clears the redo
    list.
  - `undo_text` pops an edit, pushes it on the redo list and replays it
    reversed.
  - `redo_text` does the mirror image.
  - `apply_edit` replays an edit forward or reversed on the buffer.
  - `on_edit` decides which key releases become edits.
  - `paste_text` records the whole clipboard as one insert at the cursor.

  The buffer is a `seq<char>` and positions are character offsets. Like
  Tk's, inserting or deleting past the end clamps to the end. The key
  model also describes what Tk's own key bindings do to the buffer
  (`KeyEffect`): a key that types text inserts it, Return a newline, Tab a
  tab, BackSpace and Delete remove a character. What `on_edit` records can
  then be compared with what the key did. `tk_index.dfy` models the
  `line.col` index strings that `on_edit` actually stores
  (`f"{index}-1c"`). Tk resolves them only when an edit is replayed, against
  the buffer as it is then (`Keys.CaptureStored`, `Keys.ApplyStored`).
- **The highlight codec** (`codec.dfy`, with Python's `split`, `strip` and
  `endswith` in `strings.dfy`). `save_file` writes the text, then one
  `start,end,tag` line per range of every tag except `sel`. It writes those
  lines only for `.txtp` paths. `open_file` puts the whole content into the
  buffer. For `txt` and `txtp` files it then reads every stripped,
  non-comment line that has a comma as such a record. A comma line that does
  not unpack into three fields ends the load with Python's `ValueError`
  (`Malformed`). Positions stay the opaque strings the widget produced.
- **The font-size limiter** (`font_size.dfy`). `set_font_size` allows at
  most three consecutive steps in one direction.

`results.dfy` holds the `Option` and `Result` types.

The main results:
- `EditLog.UndoAllRedoAll`. In a log that replays truthfully from some
  starting text (`Consistent`), undoing every edit gives back that text.
  Redoing as many times then gives back the whole log. Positions are
  offsets fixed when each edit is recorded; for letters as the source
  stores them, redo can land elsewhere (see Findings).
- `Codec.LoadSave`. Opening a `.txtp` file the editor saved applies exactly
  the saved ranges, in order and without error, when no line of the text
  is a comma line and every record is safe (no comma or newline in a
  field, no whitespace at either end of the line).
- `Keys.CaptureKeystroke`. The corrected key capture records exactly the
  change each modelled key makes: text keys, Return, Tab, BackSpace and
  Delete. Every other key leaves the text alone in the model and records
  nothing (see Findings).

Where the code behaves otherwise than a reader of the editor might expect,
the model follows the code:
- On load, the buffer receives the whole file, metadata lines included
  (`Codec.Load`, `Codec.LoadSave`).
- A malformed line ends the load after the buffer has already been
  overwritten, and after the records before it were applied. The load does
  not leave the editor in its pre-load state (`Codec.Load`,
  `Codec.FourFields`).
- Saving what was just loaded does not give the same file back. Each
  open-and-save cycle appends a newline and a fresh metadata section
  (`Codec.SaveAfterLoad`).
- A line is a comment when it starts with `#` after stripping, not before
  (`Codec.ParseLine`).
- `undo_text` and `redo_text` return `"break"` and report nothing about
  whether they acted. The model's `Undo`/`Redo` return only the new log.

## Model

| member | source | states |
|---|---|---|
| EditLog.InsertAtSpec | PyText.py:163 | `text.insert` puts the characters at the index (or at the end, if the index is past it) and keeps the text before and after it in order |
| EditLog.DeleteSpanSpec | PyText.py:168 | `text.delete(index, index+n)` removes the characters of that span that exist and closes up the rest |
| EditLog.InsertThenDelete | PyText.py:159-163 | deleting `len(chars)` characters at the index where `chars` was just inserted restores the buffer |
| EditLog.DeleteThenInsert | PyText.py:164-168 | re-inserting the characters that a delete removed restores the buffer, when they were the ones at that index |
| EditLog.ApplySpec | PyText.py:157-168 | `apply_edit`: an insert forward and a delete reversed put the characters at the index (clamped to the end) and keep the rest in order; an insert reversed and a delete forward remove the characters of `[index, index + len(chars))` that exist and close up |
| EditLog.ApplyThenReverse | PyText.py:157-168 | `apply_edit` reversed undoes `apply_edit` forward, for an edit that can be made there, and leaves that edit undoable |
| EditLog.ReverseThenApply | PyText.py:157-168 | `apply_edit` forward undoes `apply_edit` reversed, for an edit that is in effect, and leaves it redoable |
| EditLog.Record | PyText.py:125-127 | recording appends exactly that edit to the undo list, empties the redo list and leaves the buffer alone |
| EditLog.RedoAfterRecord | PyText.py:125-127 | after a new edit is recorded, redo does nothing, and undo leaves only that edit to redo |
| EditLog.Undo | PyText.py:108-113 | with an empty undo list nothing changes; otherwise exactly the top edit moves to the top of the redo list and is replayed reversed; the combined length of the lists is kept |
| EditLog.Redo | PyText.py:115-120 | the mirror image of undo: the top redo edit moves to the undo list and is replayed forward; the combined length is kept |
| EditLog.RedoAfterUndo | PyText.py:108-120 | undo followed by redo restores both lists and the buffer when the top edit is in effect |
| EditLog.UndoAfterRedo | PyText.py:108-120 | redo followed by undo restores both lists and the buffer when the top redo edit can be replayed |
| EditLog.FreshConsistent | PyText.py:122-123 | the empty lists at start-up describe the buffer truthfully |
| EditLog.PerformConsistent | PyText.py:125-127 | recording an edit the user could make keeps the history truthful |
| EditLog.UndoConsistent | PyText.py:108-113 | undo keeps the history truthful, and the history itself (`History`: the undo list followed by the redo list from its top down) stays the same edits in the same order, with the split point moved one back |
| EditLog.RedoConsistent | PyText.py:115-120 | redo keeps the history truthful, and `History` stays the same, with the split point moved one forward |
| EditLog.ConsistentRedoAfterUndo | PyText.py:108-120 | in a truthful history with a non-empty undo list, undo followed by redo restores the log |
| EditLog.UndoTimesConsistent | PyText.py:108-113 | any number of undos, including ones past the undo depth that do nothing, keeps the history truthful and `History` unchanged |
| EditLog.UndoAllRedoAll | PyText.py:108-127 | undoing every recorded edit returns the buffer to the text the history started from, and as many redos restore the whole log |
| EditLog.RedoUndoTimes | PyText.py:108-120 | in a truthful history, `n` undos followed by `n` redos restore the log, for any `n` up to the undo depth |
| Keys.Capture | PyText.py:129-153 | `on_edit`: EnterNotify and arrow keys record nothing; every recorded edit is one character; an alphanumeric key records an insert just before the cursor, of a character that is in the buffer; BackSpace records a delete at cursor-1 and Delete one at the cursor, of a character that is still in the buffer |
| Keys.CapturePolicy | PyText.py:132-153 | the capture key by key: an alphanumeric key with cursor > 0 records `("insert", cursor-1, buffer[cursor-1])`; BackSpace at the start and Delete at the end are dropped; BackSpace and Delete otherwise record their one-character deletes; any other key records nothing |
| Keys.BackspaceOnRelease | PyText.py:141-155 | because `on_edit` runs on key release, BackSpace records the character before the one it removed, so undo restores the buffer exactly when the two are equal; in the model, with the cursor just after the first character nothing is recorded although a character was removed (in Tk a bogus delete is recorded there, see Left out) |
| Keys.BackspaceCounterexample | PyText.py:141-155 | BackSpace at the end of "ab" removes 'b', records a delete of 'a', and undo then gives "aa" |
| Keys.DeleteOnRelease | PyText.py:148-155 | because `on_edit` runs on key release, Delete records the character after the one it removed; in the model it records nothing when it removes the last character (in Tk it records a delete of the trailing newline, see Left out) |
| Keys.CaptureOnRelease | PyText.py:129-155 | `on_edit` as bound to key release, on the buffer after the key acted: a recorded edit is one character; a single letter or digit is recorded as the insert at the cursor that it was; a key that types any other text (space, punctuation, Return, Tab) changes the buffer and records nothing |
| Keys.KeystrokeOnRelease | PyText.py:125-155 | one key press as written: the buffer becomes what the key produced, and the undo list grows by exactly the edit `on_edit` read, if any, clearing redo |
| Keys.SpaceUndoCounterexample | PyText.py:134-155 | typing "b" into an empty buffer, going back to the start and typing a space gives " b" with only the "b" recorded; undo then removes the space and leaves "b" |
| Keys.CaptureKeystroke | PyText.py:129-155 | the corrected capture, for every key the model covers: a recorded edit replays to exactly the buffer the key produced and reverses back to the one before; a key that records nothing left the text alone |
| Keys.SpaceUndoCorrected | PyText.py:108-155 | the same keys through the corrected capture record both inserts, and two undos give back the empty buffer |
| Keys.AlnumCaptureAgrees | PyText.py:134-140 | for one alphanumeric character, the capture as written and the corrected capture record the same edit, in offsets resolved when the key is captured (see Left out) |
| Keys.CaptureStored | PyText.py:129-153 | `on_edit` with the positions it stores: a letter or BackSpace stores `f"{index}-1c"` and Delete stores `index`; resolved on the buffer it was read from, the stored edit is exactly the one `Capture` records |
| Keys.LetterRedoCounterexample | PyText.py:134-163 | two letters typed into an empty buffer store `"1.2-1c"` for the second; undo removes it, and redo resolves the same string on the one-letter buffer to offset 0, putting the second letter in front of the first |
| Keys.RecordedIndexResolves | PyText.py:157-168 | for the corrected capture, an index fixed with `text.index` when the key is captured resolves to the recorded offset both on the buffer redo replays it on and on the one undo reverses it on |
| TkIndex.ResolveIndexOf | PyText.py:135 | the `line.col` that `text.index` gives for an offset resolves back to that offset on the same buffer |
| TkIndex.ResolveAgreeing | PyText.py:157-168 | an index taken on one buffer resolves to the same offset on every buffer with the same text before it |
| TkIndex.ResolveBack | PyText.py:139 | `f"{index}-1c"` resolved on the buffer `index` was taken from is the offset before it |
| TkIndex.ResolveExtend | PyText.py:159-168 | `f"{index}+{len(chars)}c"` resolves to the resolution of `index` moved by the length, stopping at the end |
| Keys.Keystroke | PyText.py:129-155 | a key press through the corrected capture leaves the buffer that the key produced |
| Keys.KeystrokeConsistent | PyText.py:129-155 | key presses through the corrected capture keep the history truthful, so undo unwinds them |
| Keys.PasteEdit | PyText.py:87-94 | an empty clipboard records nothing; otherwise the record is one insert of the whole clipboard at the cursor read before the paste |
| Keys.Paste | PyText.py:87-96 | the clipboard lands at the cursor, the redo list is cleared, and one undo removes the whole paste and restores the undo list; an empty clipboard leaves the log unchanged |
| Keys.PasteConsistent | PyText.py:87-96 | a paste keeps the history truthful, so the undo/redo inverse law covers pastes |
| Codec.Emitted | PyText.py:68-74 | no saved record is for the selection tag |
| Codec.EmittedExactly | PyText.py:68-74 | every saved record comes from a range of a tag with that name, and every range of every tag other than `sel` is saved |
| Codec.SelectionNeverSaved | PyText.py:69 | adding a `sel` tag anywhere in the tag list does not change what is saved |
| Codec.Save | PyText.py:62-77 | the saved file is the text and one newline; a path not ending in `.txtp` gets nothing more; a `.txtp` path gets the metadata section after it (what loading it gives back is `Codec.LoadSave`) |
| Codec.SavedLines | PyText.py:65-77 | the lines of a plain save are the text's lines and the empty line after the final newline; a `.txtp` save with safe records adds one line per emitted record before that empty line |
| Codec.HelloWorldSave | PyText.py:65-74 | a two-line text with one yellow range saves as the text, its newline and the line `1.0,1.5,yellow` |
| Codec.ParseLineMeaning | PyText.py:55-59 | what `ParseLine`, the loop body, gives for one line: after stripping, a line that is not a comment is a record when it has exactly two commas and an error when it has any other non-zero number of them; comment lines and comma-free lines yield nothing; a record's fields hold no comma and, joined with commas, give back the stripped line |
| Codec.CommaFreeInert | PyText.py:55-58 | a line without a comma yields nothing, whatever its whitespace |
| Codec.SafeRecordLine | PyText.py:55-59 | the line saved for a record whose fields hold no comma or newline, whose line neither starts nor ends with whitespace, and whose start does not begin with `#`, reads back as that record |
| Codec.WalkSpec | PyText.py:54-60 | `Walk`, the loop over the lines, reports an error exactly when some line is malformed; without an error every record is applied; with one, the error is that of the first malformed line, and exactly the records before it were applied |
| Codec.Decode | PyText.py:53-60 | the content decodes without error exactly when no line is malformed, and then to the records of its lines in order; otherwise the error names the first malformed line and its field count |
| Codec.Load | PyText.py:44-60 | the buffer receives the whole content; other extensions yield no records and no error; `txt` and `txtp` files are read line by line as `WalkSpec` states, so the records before a malformed line stay applied |
| Codec.FourFields | PyText.py:53-59 | a `.txt` file whose only line has four comma-separated fields, does not start with `#` and has no whitespace at either end ends the load with an error for that line; the buffer already holds the content, and no record is applied |
| Codec.TaggedExtension | PyText.py:47 | a path that `save_file` writes with metadata (ending in `.txtp`) has extension `txtp` on load |
| Codec.DecodeSave | PyText.py:54-74 | decoding what a `.txtp` save wrote gives exactly the saved records, in order, when no body line is a comma line and every record is safe |
| Codec.LoadSave | PyText.py:44-77 | when no body line is a comma line and every record is safe, opening a saved `.txtp` file applies exactly the saved ranges, in order, without error, and the buffer holds the whole file |
| Codec.SaveAfterLoad | PyText.py:44-77 | saving what was just loaded writes the loaded content followed by more text, so the file never comes back unchanged |
| Strings.SplitSpec | PyText.py:54 | `split(sep)` gives one more piece than there are separators, no piece holds a separator, and joining the pieces with the separator gives back the string |
| Strings.SplitJoin | PyText.py:59 | splitting separator-free pieces joined with the separator gives back the pieces |
| Strings.StripKeepsText | PyText.py:55 | `strip()` removes only whitespace: every other character is kept |
| Strings.LastPieceOfSplit | PyText.py:47 | `split(".")[-1]` is the separator-free text after the last `.`, or the whole path when it has none |
| FontSize.SetFontSize | PyText.py:207-217 | a step changes the state exactly when it is an increase with fewer than three increases in a row or a decrease with fewer than three decreases in a row; the size then moves by exactly the step, the count in that direction goes up by one and the other count is cleared; a change of 0 does nothing |
| FontSize.InitialInv | PyText.py:223-225 | the start-up state, with both counts 0, is within the limit |
| FontSize.SetFontSizeInv | PyText.py:207-217 | a step keeps both counts at most three, with at least one of them 0 |
| FontSize.RunInv | PyText.py:207-228 | any sequence of menu commands keeps both counts at most three, with at least one of them 0 |
| FontSize.RepeatSize | PyText.py:207-217 | repeating one step moves the size only as many times as the count in that direction still allows, and stops there |
| FontSize.Saturation | PyText.py:207-228 | from start-up, three increases of 2 add 6; a fourth increase is refused; a decrease is allowed at once |

## Left out

- The Tkinter widget, menus, key bindings, `mainloop`, the icon and
  `resource_path` are UI plumbing. The file dialogs, reading and writing
  files, and UTF-8 decoding with `errors='replace'` are I/O. The Pillow
  auto-install is an environment side effect. The codec works on an
  already decoded string. `save_file` writes in text mode
  (PyText.py:66, 76), which turns "\n" into the platform's line ending and
  uses the locale's encoding, while `open_file` reads raw bytes as UTF-8
  (PyText.py:48-49); `Codec.LoadSave` takes the file to be read back as it
  was written.
- Tk index strings are modelled only in `tk_index.dfy`, as `line.col`
  with `+Nc`/`-Nc` modifiers, the column clamped to its line and each
  modifier stopping at the ends. `end`, marks and the other modifiers are
  not modelled. The edit log uses character offsets, and the codec keeps
  positions as opaque strings.
- Keys.AlnumCaptureAgrees: the two captures agree only in offsets resolved
  when the key is captured. The source stores a letter's position as
  `f"{index}-1c"` and Tk resolves it at replay, so redo of a letter typed
  at the end of a line lands one character to the left
  (`Keys.LetterRedoCounterexample`). `EditLog.RedoAfterUndo` and
  `EditLog.UndoAllRedoAll` hold for offsets fixed when the edit is
  recorded (`Keys.RecordedIndexResolves`), not for letter edits as the
  source stores them.
- The trailing newline that Tk keeps after the text is not modelled. Only
  `text.get("1.0", "end")` in `save_file` gets it back (`Codec.Body`).
- Tk's clamping of `"1.0-1c"` to the start, and `get` at the end returning
  the trailing newline, are not modelled. The capture never reads before
  the start or past the end of the buffer. In Tk the empty-string guards
  (PyText.py:137, 145, 150) therefore never fire. BackSpace at the start
  records a delete of the first character (or of the newline) at `1.0`, and
  undoing it duplicates that character. Delete at the end records a delete
  of the trailing newline, and undoing it inserts a newline. The model
  records nothing in these cases.
- `tag_add` on load is modelled as the list of records passed to it. The
  highlighting itself is left out, and so is the `TclError` for a position
  Tk cannot parse.
- `tag_ranges` is taken to be a list of `(start, end)` pairs. Tk always
  returns an even number of positions.
- `clipboard_get` raising `TclError` on an empty clipboard is not modelled.
  An empty clipboard is modelled as recording nothing, as the `if clipboard`
  guard does.
- Replacing the selection when typing or pasting is not modelled. Neither is
  the `<<Paste>>` event itself, which is modelled as inserting at the
  cursor.
- `Keys.IsAlnum` covers ASCII letters and digits only. Python's
  `isalnum()` also accepts other Unicode letters and digits.
- `Keys.KeyEffect` models Tk's default bindings for keys that type text,
  Return, Tab, BackSpace and Delete. A key whose text is a control
  character is taken to type nothing. Modifier combinations are not
  modelled, and neither are the editing bindings on other keys (such as
  Control-d, Control-k, Control-h or Control-t), which change the text in Tk.
  Such keys record nothing in both captures. `Keys.CaptureKeystroke` and
  `Keys.KeystrokeConsistent` say nothing about them.
- `Keys.Keystroke` and `Keys.KeystrokeConsistent` use the corrected capture
  (`Keys.CaptureKeystroke`), not the one as written (see Findings).
- `set_font_size`'s font object configuration, word wrap, copy,
  select-all, the highlight menu and close are widget state or thin
  wrappers.
- `undo_text` and `redo_text` return `"break"` to Tk. This is not
  modelled.
- `open_file` (PyText.py:44-60) replaces the buffer but does not clear
  `undo_list` or `redo_list`, so after an open, undo replays the old
  document's edits on the new text. The model keeps `Codec.Load` and the
  edit log apart: a log is not `Consistent` across a load, and
  `EditLog.UndoAllRedoAll` describes a session in which no file has been
  opened since start-up.

## Findings

| source | as written | input that shows it | evidently intended | confidence | as-written member | corrected member |
|---|---|---|---|---|---|---|
| PyText.py:141-155 | `on_edit` is bound to `<KeyRelease>`, so BackSpace and Delete read the buffer after Tk has already removed the character. BackSpace records the character before the removed one (at cursor-2), and Delete records the character after it. | buffer "ab", cursor 2, BackSpace: Tk removes 'b', the log records a delete of 'a' at 0, and undo gives "aa" | record the character the key removed, read before the key acts, so that undo restores the buffer | not executed; medium (rests on Tk's default bindings acting on key press) | Keys.BackspaceCounterexample | Keys.CaptureKeystroke |
| PyText.py:134-140 | `on_edit` records a typed key only when its text is alphanumeric. Space, punctuation, Return and Tab change the text without being recorded, so later undos act at offsets that no longer match. | empty buffer: type "b", move to the start, type a space: the buffer is " b" and only Insert(0, "b") is recorded; undo removes the space and leaves "b" | record every key that types text, so that undo takes back the most recent change | not executed; medium (the alphanumeric filter may be deliberate, but undo removing a character other than the one typed is not) | Keys.SpaceUndoCounterexample | Keys.CaptureKeystroke |
| PyText.py:134-163 | `on_edit` stores a letter's position as the string `f"{index}-1c"`, which Tk resolves only when `apply_edit` replays the edit. On the buffer redo sees, the column can be past the end of its line, where Tk reads it as the line's newline. | empty buffer: type "a", then "b"; the second edit stores `"1.2-1c"`; undo leaves "a"; redo resolves `"1.2"` on "a" to 1.1, then `-1c` to 1.0, and inserts "b" there, giving "ba" | store the position resolved when the key is captured, `text.index(f"{index}-1c")`, so that redo puts the letter back where it was | not executed; medium (rests on Tk clamping a column past the end of its line) | Keys.LetterRedoCounterexample | Keys.RecordedIndexResolves |

=== FILE: codec.dfy ===
/**
 The highlight file format. `save_file` writes the buffer text followed by one
 `start,end,tag` line per range of every tag except the selection; `open_file`
 puts the whole content in the buffer and then, for `.txt` and `.txtp` files,
 reads every comma line of it (stripped, and not a `#` comment) as such a
 record. Positions are kept as the opaque strings the widget produced: the
 codec never looks inside them.
 */
module Codec {
  import opened Results
  import opened Strings

  /** One `(start, end)` pair of `text.tag_ranges(tag)`. */
  datatype Range = Range(start: string, end: string)

  /** A tag of the widget with its ranges in the order the widget lists them. */
  datatype Tag = Tag(name: string, ranges: seq<Range>)

  /** One metadata line: the arguments of a `text.tag_add` on load. */
  datatype Record = Record(start: string, end: string, tag: string)

  /** The `ValueError` of unpacking a comma line that does not split into
      exactly three fields. */
  datatype DecodeError = Malformed(line: string, fields: nat)

  /** Tk's selection tag, never saved. */
  const Selection: string := "sel"

  /** The one save extension that gets a metadata section. */
  const TaggedSuffix: string := ".txtp"

  /** `text.get("1.0", "end")`: Tk ends the text with one newline. */
  function Body(text: string): string {
    text + "\n"
  }

  function RecordsOf(t: Tag): (rs: seq<Record>)
    ensures |rs| == |t.ranges|
    ensures forall k :: 0 <= k < |rs| ==>
      rs[k] == Record(t.ranges[k].start, t.ranges[k].end, t.name)
    decreases |t.ranges|
  {
    if |t.ranges| == 0 then []
    else
      var rg := t.ranges[0];
      [Record(rg.start, rg.end, t.name)] + RecordsOf(Tag(t.name, t.ranges[1..]))
  }

  /** The records `save_file` emits: every range of every tag other than the
      selection, tag by tag and range by range; none of them is for the
      selection. */
  function Emitted(tags: seq<Tag>): (rs: seq<Record>)
    ensures forall k :: 0 <= k < |rs| ==> rs[k].tag != Selection
    decreases |tags|
  {
    if |tags| == 0 then []
    else (if tags[0].name == Selection then [] else RecordsOf(tags[0])) + Emitted(tags[1..])
  }

  /** `r` is the record of one range of one of the tags. */
  ghost predicate FromTag(tags: seq<Tag>, r: Record) {
    exists t, rg :: t in tags && rg in t.ranges && r == Record(rg.start, rg.end, t.name)
  }

  /** Every emitted record comes from a range of a tag of that name, and every
      range of a tag other than the selection is emitted. */
  lemma {:induction false} EmittedExactly(tags: seq<Tag>)
    ensures var rs := Emitted(tags);
      && (forall k :: 0 <= k < |rs| ==>
            FromTag(tags, rs[k]))
      && (forall t, rg :: t in tags && t.name != Selection && rg in t.ranges ==>
            Record(rg.start, rg.end, t.name) in rs)
    decreases |tags|
  {
    if |tags| > 0 {
      EmittedExactly(tags[1..]);
      var here := if tags[0].name == Selection then [] else RecordsOf(tags[0]);
      EmittedCovers(tags, here, Emitted(tags[1..]));
    }
  }

  lemma EmittedCovers(tags: seq<Tag>, here: seq<Record>, rest: seq<Record>)
    requires |tags| > 0
    requires here == if tags[0].name == Selection then [] else RecordsOf(tags[0])
    requires forall k :: 0 <= k < |rest| ==>
      FromTag(tags[1..], rest[k])
    requires forall t, rg :: t in tags[1..] && t.name != Selection && rg in t.ranges ==>
      Record(rg.start, rg.end, t.name) in rest
    ensures var rs := here + rest;
      && (forall k :: 0 <= k < |rs| ==>
            FromTag(tags, rs[k]))
      && (forall t, rg :: t in tags && t.name != Selection && rg in t.ranges ==>
            Record(rg.start, rg.end, t.name) in rs)
  {
    var rs := here + rest;
    forall k | 0 <= k < |rs|
      ensures FromTag(tags, rs[k])
    {
      if k < |here| {
        var rg := tags[0].ranges[k];
        assert tags[0] in tags;
        assert rg in tags[0].ranges;
        assert rs[k] == Record(rg.start, rg.end, tags[0].name);
      } else {
        assert rs[k] == rest[k - |here|];
        var t, rg :| t in tags[1..] && rg in t.ranges && rest[k - |here|] == Record(rg.start, rg.end, t.name);
        assert t in tags;
      }
    }
    forall t, rg | t in tags && t.name != Selection && rg in t.ranges
      ensures Record(rg.start, rg.end, t.name) in rs
    {
      if t == tags[0] {
        var j :| 0 <= j < |t.ranges| && t.ranges[j] == rg;
        assert here[j] == Record(rg.start, rg.end, t.name);
      } else {
        var i :| 0 <= i < |tags| && tags[i] == t;
        assert t in tags[1..] by { assert tags[1..][i - 1] == t; }
      }
    }
  }

  /** A selection tag added anywhere to the tag list changes nothing that is
      saved. */
  lemma {:induction false} SelectionNeverSaved(front: seq<Tag>, ranges: seq<Range>, back: seq<Tag>)
    ensures Emitted(front + [Tag(Selection, ranges)] + back) == Emitted(front + back)
    decreases |front|
  {
    if |front| == 0 {
      assert front + [Tag(Selection, ranges)] + back == [Tag(Selection, ranges)] + back;
      assert ([Tag(Selection, ranges)] + back)[1..] == back;
      assert front + back == back;
    } else {
      SelectionNeverSaved(front[1..], ranges, back);
      assert (front + [Tag(Selection, ranges)] + back)[1..] == front[1..] + [Tag(Selection, ranges)] + back;
      assert (front + back)[1..] == front[1..] + back;
    }
  }

  /** The text of one metadata line, without its newline. */
  function RecordLine(r: Record): string {
    r.start + "," + r.end + "," + r.tag
  }

  /** The metadata section: each record's line followed by a newline. */
  function Render(rs: seq<Record>): string
    decreases |rs|
  {
    if |rs| == 0 then "" else RecordLine(rs[0]) + "\n" + Render(rs[1..])
  }

  /** `save_file` after the dialog. The file starts with the text and one
      newline. Any other path gets nothing more, and a `.txtp` path gets the
      metadata section after that newline (see `SavedLines` for the lines
      this makes and `LoadSave` for what loading them gives back). */
  function Save(path: string, text: string, tags: seq<Tag>): (content: string)
    ensures |content| > |text| && content[..|text|] == text && content[|text|] == '\n'
    ensures !EndsWith(path, TaggedSuffix) ==> |content| == |text| + 1
    ensures EndsWith(path, TaggedSuffix) ==> content[|text| + 1..] == Render(Emitted(tags))
  {
    if EndsWith(path, TaggedSuffix) then Body(text) + Render(Emitted(tags)) else Body(text)
  }

  /** What one line of the content means on load. */
  datatype LineMeaning = Skip | Entry(record: Record) | Bad(fields: nat)

  predicate IsComment(t: string) {
    StartsWith(t, '#')
  }

  /** The loop body of `open_file` for one line: strip it, pass over a `#`
      comment and a line without a comma, and unpack a comma line into three
      fields (see `ParseLineMeaning`). */
  function ParseLine(line: string): LineMeaning {
    var t := Strip(line);
    if IsComment(t) then Skip
    else if ',' !in t then Skip
    else
      var fields := Split(t, ',');
      if |fields| == 3 then Entry(Record(fields[0], fields[1], fields[2]))
      else Bad(|fields|)
  }

  /** A stripped line that is not a comment is a record exactly when it has
      two commas, and an error exactly when it has some other positive number
      of them; a record's fields hold no comma and, glued back with commas,
      give the stripped line. */
  lemma ParseLineMeaning(line: string)
    ensures var t := Strip(line);
      var m := ParseLine(line);
      && (m.Entry? <==> !IsComment(t) && Count(t, ',') == 2)
      && (m.Bad? <==> !IsComment(t) && Count(t, ',') != 0 && Count(t, ',') != 2)
      && (m.Entry? ==>
            && RecordLine(m.record) == t
            && ',' !in m.record.start && ',' !in m.record.end && ',' !in m.record.tag)
      && (m.Bad? ==> m.fields == Count(t, ',') + 1)
  {
    var t := Strip(line);
    CountZero(t, ',');
    if !IsComment(t) && ',' in t {
      var fields := Split(t, ',');
      SplitSpec(t, ',');
      if |fields| == 3 {
        assert fields == [fields[0], fields[1], fields[2]];
        Join3(fields[0], fields[1], fields[2], ',');
      }
    }
  }

  /** The meaning of every line, in order. */
  function Meanings(lines: seq<string>): (ms: seq<LineMeaning>)
    ensures |ms| == |lines|
    ensures forall k :: 0 <= k < |lines| ==> ms[k] == ParseLine(lines[k])
    decreases |lines|
  {
    if |lines| == 0 then [] else [ParseLine(lines[0])] + Meanings(lines[1..])
  }

  lemma {:induction false} MeaningsAppend(a: seq<string>, b: seq<string>)
    ensures Meanings(a + b) == Meanings(a) + Meanings(b)
    decreases |a|
  {
    if |a| == 0 {
      assert a + b == b;
    } else {
      assert (a + b)[0] == a[0];
      assert (a + b)[1..] == a[1..] + b;
      MeaningsAppend(a[1..], b);
    }
  }

  /** The records of the `Entry` meanings, in order, ignoring the others. */
  function Harvest(ms: seq<LineMeaning>): seq<Record>
    decreases |ms|
  {
    if |ms| == 0 then []
    else (if ms[0].Entry? then [ms[0].record] else []) + Harvest(ms[1..])
  }

  lemma {:induction false} HarvestAppend(a: seq<LineMeaning>, b: seq<LineMeaning>)
    ensures Harvest(a + b) == Harvest(a) + Harvest(b)
    decreases |a|
  {
    if |a| == 0 {
      assert a + b == b;
    } else {
      var h := if a[0].Entry? then [a[0].record] else [];
      assert (a + b)[0] == a[0];
      assert (a + b)[1..] == a[1..] + b;
      assert Harvest(a + b) == h + Harvest(a[1..] + b);
      HarvestAppend(a[1..], b);
      assert h + (Harvest(a[1..]) + Harvest(b)) == (h + Harvest(a[1..])) + Harvest(b);
    }
  }

  /** No line is malformed. */
  predicate Clean(ms: seq<LineMeaning>) {
    forall k :: 0 <= k < |ms| ==> !ms[k].Bad?
  }

  lemma CleanCons(ms: seq<LineMeaning>)
    requires |ms| > 0
    ensures Clean(ms) <==> !ms[0].Bad? && Clean(ms[1..])
  {
    if !ms[0].Bad? && Clean(ms[1..]) {
      forall k | 0 <= k < |ms|
        ensures !ms[k].Bad?
      {
        if k > 0 { assert ms[k] == ms[1..][k - 1]; }
      }
    }
  }

  /** Line `k` is the first malformed one. */
  predicate FirstBad(ms: seq<LineMeaning>, k: int) {
    0 <= k < |ms| && ms[k].Bad? && Clean(ms[..k])
  }

  /** The records applied and the error raised, if any, when `open_file` walks
      the lines. */
  datatype Parsed = Parsed(records: seq<Record>, error: Option<DecodeError>)

  /** The loop of `open_file`, given the meaning of each line: records are
      applied line by line, and the first malformed line raises, leaving the
      records applied before it in place (see `WalkSpec`). */
  function Walk(lines: seq<string>, ms: seq<LineMeaning>): Parsed
    requires |ms| == |lines|
    decreases |lines|
  {
    if |lines| == 0 then Parsed([], None)
    else
      match ms[0]
      case Skip => Walk(lines[1..], ms[1..])
      case Entry(r) =>
        var rest := Walk(lines[1..], ms[1..]);
        Parsed([r] + rest.records, rest.error)
      case Bad(n) => Parsed([], Some(Malformed(lines[0], n)))
  }

  /** What walking the lines does: there is an error exactly when some line is
      malformed; without one every entry is applied; with one, the error is
      that of the first malformed line and exactly the entries before it were
      applied. */
  ghost predicate Describes(lines: seq<string>, ms: seq<LineMeaning>, p: Parsed)
    requires |ms| == |lines|
  {
    && (p.error.None? <==> Clean(ms))
    && (p.error.None? ==> p.records == Harvest(ms))
    && (p.error.Some? ==>
          exists k :: (&& FirstBad(ms, k)
                       && p.error.value == Malformed(lines[k], ms[k].fields)
                       && p.records == Harvest(ms[..k])))
  }

  lemma {:induction false} WalkSpec(lines: seq<string>, ms: seq<LineMeaning>)
    requires |ms| == |lines|
    ensures Describes(lines, ms, Walk(lines, ms))
    decreases |lines|
  {
    if |lines| > 0 {
      var tail, mtail := lines[1..], ms[1..];
      WalkSpec(tail, mtail);
      var rest := Walk(tail, mtail);
      var p := Walk(lines, ms);
      CleanCons(ms);
      if ms[0].Bad? {
        assert ms[..0] == [];
        assert FirstBad(ms, 0);
      } else {
        var h := if ms[0].Entry? then [ms[0].record] else [];
        assert p.records == h + rest.records && p.error == rest.error;
        assert Harvest(ms) == h + Harvest(mtail);
        if rest.error.Some? {
          var k :| FirstBad(mtail, k)
            && rest.error.value == Malformed(tail[k], mtail[k].fields)
            && rest.records == Harvest(mtail[..k]);
          assert ms[..k + 1][1..] == mtail[..k];
          assert ms[..k + 1][0] == ms[0];
          CleanCons(ms[..k + 1]);
          assert Harvest(ms[..k + 1]) == h + Harvest(mtail[..k]);
          assert FirstBad(ms, k + 1);
        }
      }
    }
  }

  /** The loop of `open_file` over the lines of the content. */
  function ParseLines(lines: seq<string>): Parsed {
    Walk(lines, Meanings(lines))
  }

  /** The metadata reading of `open_file` on the whole content: the records
      of every line, or the error of the first malformed one. */
  function Decode(content: string): (r: Result<seq<Record>, DecodeError>)
    ensures var lines := Split(content, '\n');
      var ms := Meanings(lines);
      && (r.Ok? <==> Clean(ms))
      && (r.Ok? ==> r.value == Harvest(ms))
      && (r.Err? ==> exists k :: FirstBad(ms, k) && r.error == Malformed(lines[k], ms[k].fields))
  {
    var lines := Split(content, '\n');
    WalkSpec(lines, Meanings(lines));
    var p := ParseLines(lines);
    if p.error.None? then Ok(p.records) else Err(p.error.value)
  }

  /** Python's `file_path.split(".")[-1]`. */
  function Extension(path: string): string {
    LastPiece(path, '.')
  }

  const MetadataExtensions: seq<string> := ["txt", "txtp"]

  /** The state `open_file` leaves behind: the buffer, the `tag_add` calls
      made, and the error that ended the load, if any. */
  datatype Loaded = Loaded(buffer: string, records: seq<Record>, error: Option<DecodeError>)

  /** `open_file` after the dialog. The whole content goes into the buffer
      before any parsing, so it is there even when a line is malformed; only
      `txt` and `txtp` files have their lines read as metadata, and the
      records applied before a malformed line stay applied. */
  function Load(path: string, content: string): (r: Loaded)
    ensures r.buffer == content
    ensures Extension(path) !in MetadataExtensions ==> r.records == [] && r.error == None
    ensures Extension(path) in MetadataExtensions ==>
      var lines := Split(content, '\n');
      Describes(lines, Meanings(lines), Parsed(r.records, r.error))
  {
    if Extension(path) in MetadataExtensions then
      var lines := Split(content, '\n');
      WalkSpec(lines, Meanings(lines));
      var p := ParseLines(lines);
      Loaded(content, p.records, p.error)
    else Loaded(content, [], None)
  }

  // ---------------------------------------------------------------------
  // Round trip

  /** A body line that the loader passes over: after stripping it is a
      comment or has no comma. */
  predicate InertLine(line: string) {
    var t := Strip(line);
    IsComment(t) || ',' !in t
  }

  /** A line without a comma is inert, whatever its whitespace. */
  lemma CommaFreeInert(line: string)
    requires ',' !in line
    ensures InertLine(line)
  {
    StripKeepsText(line);
  }

  predicate InertBody(text: string) {
    forall line :: line in Split(text, '\n') ==> InertLine(line)
  }

  /** A record that survives its own line: no field holds a comma or a
      newline, and the line neither begins nor ends with whitespace nor
      begins with `#` (so stripping leaves it alone). */
  predicate SafeRecord(r: Record) {
    && ',' !in r.start && ',' !in r.end && ',' !in r.tag
    && '\n' !in r.start && '\n' !in r.end && '\n' !in r.tag
    && (|r.start| > 0 ==> !IsSpace(r.start[0]) && r.start[0] != '#')
    && (|r.tag| > 0 ==> !IsSpace(r.tag[|r.tag| - 1]))
  }

  /** Every range of every saved tag makes a safe record. */
  predicate SafeTags(tags: seq<Tag>) {
    forall t, rg :: t in tags && t.name != Selection && rg in t.ranges ==>
      SafeRecord(Record(rg.start, rg.end, t.name))
  }

  lemma SafeRecordLine(r: Record)
    requires SafeRecord(r)
    ensures ParseLine(RecordLine(r)) == Entry(r)
  {
    RecordLineFields(r);
  }

  /** A safe record's line is left alone by stripping, is no comment, and
      splits back into the three fields. */
  lemma RecordLineFields(r: Record)
    requires SafeRecord(r)
    ensures Strip(RecordLine(r)) == RecordLine(r)
    ensures !IsComment(RecordLine(r)) && ',' in RecordLine(r)
    ensures Split(RecordLine(r), ',') == [r.start, r.end, r.tag]
  {
    var line := RecordLine(r);
    assert line == r.start + [','] + r.end + [','] + r.tag;
    if |r.start| > 0 { assert line[0] == r.start[0]; } else { assert line[0] == ','; }
    if |r.tag| > 0 { assert line[|line| - 1] == r.tag[|r.tag| - 1]; } else { assert line[|line| - 1] == ','; }
    assert line[|r.start|] == ',';
    StripTrimmed(line);
    Join3(r.start, r.end, r.tag, ',');
    SplitJoin([r.start, r.end, r.tag], ',');
  }

  /** A safe record's line holds no newline. */
  lemma RecordLineSingle(r: Record)
    requires SafeRecord(r)
    ensures '\n' !in RecordLine(r)
  {
    assert RecordLine(r) == r.start + [','] + r.end + [','] + r.tag;
  }

  function RecordLines(rs: seq<Record>): (lines: seq<string>)
    ensures |lines| == |rs|
    ensures forall k :: 0 <= k < |rs| ==> lines[k] == RecordLine(rs[k])
    decreases |rs|
  {
    if |rs| == 0 then [] else [RecordLine(rs[0])] + RecordLines(rs[1..])
  }

  /** The metadata section splits into one line per record and a final empty
      line after the last newline. */
  lemma {:induction false} SplitRender(rs: seq<Record>)
    requires forall k :: 0 <= k < |rs| ==> SafeRecord(rs[k])
    ensures Split(Render(rs), '\n') == RecordLines(rs) + [""]
    decreases |rs|
  {
    if |rs| == 0 {
      assert Split("", '\n') == [""];
    } else {
      RecordLineSingle(rs[0]);
      SplitRender(rs[1..]);
      SplitAppend(RecordLine(rs[0]), Render(rs[1..]), '\n');
      SplitNoSep(RecordLine(rs[0]), '\n');
      assert Render(rs) == RecordLine(rs[0]) + ['\n'] + Render(rs[1..]);
    }
  }

  /** The lines of safe records are all entries, for exactly those records. */
  lemma {:induction false} RecordLinesMeaning(rs: seq<Record>)
    requires forall k :: 0 <= k < |rs| ==> SafeRecord(rs[k])
    ensures Clean(Meanings(RecordLines(rs)))
    ensures Harvest(Meanings(RecordLines(rs))) == rs
    decreases |rs|
  {
    if |rs| > 0 {
      var lines := RecordLines(rs);
      SafeRecordLine(rs[0]);
      RecordLinesMeaning(rs[1..]);
      assert lines[1..] == RecordLines(rs[1..]);
      var ms := Meanings(lines);
      assert ms[0] == Entry(rs[0]);
      assert ms[1..] == Meanings(lines[1..]);
      CleanCons(ms);
      assert rs == [rs[0]] + rs[1..];
    }
  }

  /** Inert lines contribute nothing and raise nothing. */
  lemma {:induction false} InertMeaning(lines: seq<string>)
    requires forall line :: line in lines ==> InertLine(line)
    ensures Clean(Meanings(lines))
    ensures Harvest(Meanings(lines)) == []
    decreases |lines|
  {
    if |lines| > 0 {
      assert lines[0] in lines;
      forall line | line in lines[1..]
        ensures InertLine(line)
      {
        assert line in lines;
      }
      InertMeaning(lines[1..]);
      var ms := Meanings(lines);
      assert ms[0] == Skip;
      assert ms[1..] == Meanings(lines[1..]);
      CleanCons(ms);
    }
  }

  lemma CleanAppend(a: seq<LineMeaning>, b: seq<LineMeaning>)
    requires Clean(a) && Clean(b)
    ensures Clean(a + b)
  {
    forall k | 0 <= k < |a + b|
      ensures !(a + b)[k].Bad?
    {
      if k < |a| { assert (a + b)[k] == a[k]; } else { assert (a + b)[k] == b[k - |a|]; }
    }
  }

  lemma EmittedSafe(tags: seq<Tag>)
    requires SafeTags(tags)
    ensures forall k :: 0 <= k < |Emitted(tags)| ==> SafeRecord(Emitted(tags)[k])
  {
    var rs := Emitted(tags);
    EmittedExactly(tags);
    forall k | 0 <= k < |rs|
      ensures SafeRecord(rs[k])
    {
      var t, rg :| t in tags && rg in t.ranges && rs[k] == Record(rg.start, rg.end, t.name);
      assert t.name != Selection;
    }
  }

  /** The lines of a saved file. Saved without metadata they are the text's
      lines and the empty line after the final newline; saved as `.txtp`
      with safe records, the text's lines are followed by one line per
      emitted record and then that empty line. */
  lemma SavedLines(path: string, text: string, tags: seq<Tag>)
    ensures !EndsWith(path, TaggedSuffix) ==>
      Split(Save(path, text, tags), '\n') == Split(text, '\n') + [""]
    ensures EndsWith(path, TaggedSuffix) && SafeTags(tags) ==>
      Split(Save(path, text, tags), '\n') == Split(text, '\n') + RecordLines(Emitted(tags)) + [""]
  {
    var content := Save(path, text, tags);
    if !EndsWith(path, TaggedSuffix) {
      assert content == text + ['\n'] + "";
      SplitAppend(text, "", '\n');
    } else if SafeTags(tags) {
      var rs := Emitted(tags);
      EmittedSafe(tags);
      assert content == text + ['\n'] + Render(rs);
      SplitAppend(text, Render(rs), '\n');
      SplitRender(rs);
    }
  }

  /** Decoding what a `.txtp` save wrote recovers exactly the emitted
      records, in order, when the body lines are inert and every record is
      safe. */
  lemma DecodeSave(path: string, text: string, tags: seq<Tag>)
    requires EndsWith(path, TaggedSuffix)
    requires InertBody(text)
    requires SafeTags(tags)
    ensures Decode(Save(path, text, tags)) == Ok(Emitted(tags))
  {
    var rs := Emitted(tags);
    EmittedSafe(tags);
    var content := Save(path, text, tags);
    var body := Split(text, '\n');
    assert forall line :: line in body ==> InertLine(line);
    SavedLines(path, text, tags);
    assert InertLine("") by { assert Strip("") == ""; }
    SavedMeanings(body, rs, [""]);
    DecodeClean(content);
  }

  /** Inert lines around the lines of safe records are well formed
      together, and hold exactly those records. */
  lemma SavedMeanings(body: seq<string>, rs: seq<Record>, tail: seq<string>)
    requires forall line :: line in body ==> InertLine(line)
    requires forall k :: 0 <= k < |rs| ==> SafeRecord(rs[k])
    requires forall line :: line in tail ==> InertLine(line)
    ensures Clean(Meanings(body + RecordLines(rs) + tail))
    ensures Harvest(Meanings(body + RecordLines(rs) + tail)) == rs
  {
    var front := body + RecordLines(rs);
    var mb, mr, me := Meanings(body), Meanings(RecordLines(rs)), Meanings(tail);
    InertMeaning(body);
    RecordLinesMeaning(rs);
    InertMeaning(tail);
    MeaningsAppend(body, RecordLines(rs));
    MeaningsAppend(front, tail);
    assert Meanings(front + tail) == (mb + mr) + me;
    HarvestAppend(mb, mr);
    HarvestAppend(mb + mr, me);
    assert Harvest(mb + mr) == rs;
    CleanAppend(mb, mr);
    CleanAppend(mb + mr, me);
  }

  /** Content whose lines are all well formed decodes to their entries. */
  lemma DecodeClean(content: string)
    requires Clean(Meanings(Split(content, '\n')))
    ensures Decode(content) == Ok(Harvest(Meanings(Split(content, '\n'))))
  {
  }

  lemma TaggedExtension(path: string)
    requires EndsWith(path, TaggedSuffix)
    ensures Extension(path) == "txtp"
  {
    var n := |path|;
    assert path == path[..n - 5] + ['.'] + "txtp";
    LastPieceAfterSep(path[..n - 5], "txtp", '.');
  }

  /** The round trip of the format: opening a `.txtp` file the editor saved
      applies exactly the ranges it saved, in order and without error, while
      the buffer receives the whole file, metadata lines included. */
  lemma LoadSave(path: string, text: string, tags: seq<Tag>)
    requires EndsWith(path, TaggedSuffix)
    requires InertBody(text)
    requires SafeTags(tags)
    ensures Load(path, Save(path, text, tags))
         == Loaded(Body(text) + Render(Emitted(tags)), Emitted(tags), None)
  {
    TaggedExtension(path);
    DecodeSave(path, text, tags);
  }

  /** Saving what was just loaded does not give the file back: the saved
      text is the loaded content with a newline and a fresh metadata section
      appended, so every open-and-save cycle grows the file. */
  lemma SaveAfterLoad(path: string, content: string, tags: seq<Tag>)
    ensures var saved := Save(path, Load(path, content).buffer, tags);
      |saved| > |content| && saved[..|content|] == content
  {
  }

  /** A two-line body with one highlighted range, saved. */
  lemma HelloWorldSave()
    ensures Save("notes.txtp", "hello\nworld", [Tag("yellow", [Range("1.0", "1.5")])])
         == "hello\nworld\n1.0,1.5,yellow\n"
  {
    assert EndsWith("notes.txtp", TaggedSuffix);
    OneRangeSave("notes.txtp", "hello\nworld", "yellow", "1.0", "1.5");
  }

  /** A `.txtp` save of one highlighted range: the text, its newline and the
      range's line. */
  lemma OneRangeSave(path: string, text: string, name: string, start: string, end: string)
    requires EndsWith(path, TaggedSuffix) && name != Selection
    ensures Save(path, text, [Tag(name, [Range(start, end)])])
         == text + "\n" + start + "," + end + "," + name + "\n"
  {
    var tags := [Tag(name, [Range(start, end)])];
    assert tags[1..] == [];
    assert RecordsOf(tags[0]) == [Record(start, end, name)];
    assert Emitted(tags) == [Record(start, end, name)];
    assert Render([Record(start, end, name)]) == RecordLine(Record(start, end, name)) + "\n";
  }

  /** A comma line with four fields ends the load of a `.txt` file with an
      error, after the whole content is already in the buffer and before any
      record is applied. */
  lemma FourFields(path: string, a: string, b: string, c: string, d: string)
    requires EndsWith(path, ".txt")
    requires ',' !in a && ',' !in b && ',' !in c && ',' !in d
    requires '\n' !in a && '\n' !in b && '\n' !in c && '\n' !in d
    requires |a| > 0 && !IsSpace(a[0]) && a[0] != '#'
    requires |d| > 0 && !IsSpace(d[|d| - 1])
    ensures var line := a + "," + b + "," + c + "," + d;
      Load(path, line) == Loaded(line, [], Some(Malformed(line, 4)))
  {
    var line := a + "," + b + "," + c + "," + d;
    var n := |path|;
    assert path == path[..n - 4] + ['.'] + "txt";
    LastPieceAfterSep(path[..n - 4], "txt", '.');
    assert '\n' !in line;
    SplitNoSep(line, '\n');
    FourFieldsLine(a, b, c, d);
    assert Meanings([line]) == [Bad(4)];
  }

  lemma FourFieldsLine(a: string, b: string, c: string, d: string)
    requires ',' !in a && ',' !in b && ',' !in c && ',' !in d
    requires |a| > 0 && !IsSpace(a[0]) && a[0] != '#'
    requires |d| > 0 && !IsSpace(d[|d| - 1])
    ensures ParseLine(a + "," + b + "," + c + "," + d) == Bad(4)
  {
    var line := a + "," + b + "," + c + "," + d;
    assert line[0] == a[0] && line[|line| - 1] == d[|d| - 1];
    StripTrimmed(line);
    FourFieldsSplit(a, b, c, d);
    assert line[|a|] == ',';
  }

  lemma FourFieldsSplit(a: string, b: string, c: string, d: string)
    requires ',' !in a && ',' !in b && ',' !in c && ',' !in d
    ensures Split(a + "," + b + "," + c + "," + d, ',') == [a, b, c, d]
  {
    assert a + "," + b + "," + c + "," + d == a + [','] + (b + [','] + (c + [','] + d));
    SplitAppend(a, b + [','] + (c + [','] + d), ',');
    SplitAppend(b, c + [','] + d, ',');
    SplitAppend(c, d, ',');
    SplitNoSep(a, ',');
    SplitNoSep(b, ',');
    SplitNoSep(c, ',');
    SplitNoSep(d, ',');
  }
}

=== FILE: edit_log.dfy ===
/**
 The editor's undo/redo history. An edit is an `(action, index, chars)`
 triple; `add_edit_state` pushes it on the undo list and empties the redo
 list; `undo_text` moves the top of the undo list to the redo list and
 replays it reversed; `redo_text` moves it back and replays it forward.

 The buffer is the widget's text as a `seq<char>` and positions are character
 offsets. Like Tk, inserting or deleting past the end clamps to the end.
 */
module EditLog {

  datatype Action = Insert | Delete

  datatype Edit = Edit(action: Action, index: nat, chars: string)

  /** The text buffer together with the two module-level lists `undo_list`
      and `redo_list`; the last element of each is its top. */
  datatype Log = Log(buffer: string, undo: seq<Edit>, redo: seq<Edit>)

  function Clamp(i: nat, n: nat): (k: nat)
    ensures k <= n && (i <= n ==> k == i) && (i > n ==> k == n)
  {
    if i <= n then i else n
  }

  /** Tk's `text.insert(index, chars)` (see `InsertAtSpec`). */
  function InsertAt(b: string, i: nat, s: string): string {
    var k := Clamp(i, |b|);
    b[..k] + s + b[k..]
  }

  /** `s` lands at offset `i` (or at the end when `i` is past it) and
      everything else keeps its order. */
  lemma InsertAtSpec(b: string, i: nat, s: string)
    ensures var r := InsertAt(b, i, s);
      var k := Clamp(i, |b|);
      && |r| == |b| + |s|
      && r[..k] == b[..k]
      && r[k..k + |s|] == s
      && r[k + |s|..] == b[k..]
  {
  }

  /** Tk's `text.delete(index, index + n chars)` (see `DeleteSpanSpec`). */
  function DeleteSpan(b: string, i: nat, n: nat): string {
    var lo := Clamp(i, |b|);
    var hi := Clamp(i + n, |b|);
    b[..lo] + b[hi..]
  }

  /** The characters in `[i, i + n)` that exist are removed and the rest
      close up. */
  lemma DeleteSpanSpec(b: string, i: nat, n: nat)
    ensures var r := DeleteSpan(b, i, n);
      var lo := Clamp(i, |b|);
      var hi := Clamp(i + n, |b|);
      && |r| == |b| - (hi - lo)
      && r[..lo] == b[..lo]
      && r[lo..] == b[hi..]
  {
  }

  /** `apply_edit(edit, reverse)`: an insert replays as an insertion and
      reverses as a deletion of as many characters at the same index; a delete
      is the mirror image. */
  function Apply(b: string, e: Edit, reverse: bool): string {
    match e.action
    case Insert => if reverse then DeleteSpan(b, e.index, |e.chars|) else InsertAt(b, e.index, e.chars)
    case Delete => if reverse then InsertAt(b, e.index, e.chars) else DeleteSpan(b, e.index, |e.chars|)
  }

  /** What `apply_edit` does to the buffer. The inserting direction (an
      insert forward, a delete reversed) puts the characters at the index, or
      at the end when the index is past it, and keeps the rest in order. The
      removing direction (an insert reversed, a delete forward) takes out the
      characters of `[index, index + |chars|)` that exist and closes up. */
  lemma ApplySpec(b: string, e: Edit, reverse: bool)
    ensures var r := Apply(b, e, reverse);
      var n := |e.chars|;
      var lo, hi := Clamp(e.index, |b|), Clamp(e.index + n, |b|);
      && ((e.action == Insert) != reverse ==>
            && |r| == |b| + n
            && r[..lo] == b[..lo] && r[lo..lo + n] == e.chars && r[lo + n..] == b[lo..])
      && ((e.action == Insert) == reverse ==>
            && |r| == |b| - (hi - lo)
            && r[..lo] == b[..lo] && r[lo..] == b[hi..])
  {
    InsertAtSpec(b, e.index, e.chars);
    DeleteSpanSpec(b, e.index, |e.chars|);
  }

  /** `e.chars` sits in `b` at `e.index`. */
  predicate Present(b: string, e: Edit) {
    e.index + |e.chars| <= |b| && b[e.index..e.index + |e.chars|] == e.chars
  }

  /** `e` can be replayed forward on `b` as the edit the user made: an
      insert needs its index inside the buffer, a delete needs its characters
      to be the ones at its index. */
  predicate Redoable(b: string, e: Edit) {
    match e.action
    case Insert => e.index <= |b|
    case Delete => Present(b, e)
  }

  /** `e` has just been made on `b`: the mirror of `Redoable`. */
  predicate Undoable(b: string, e: Edit) {
    match e.action
    case Insert => Present(b, e)
    case Delete => e.index <= |b|
  }

  /** Deleting what was just inserted at the same index restores the buffer. */
  lemma InsertThenDelete(b: string, i: nat, s: string)
    requires i <= |b|
    ensures DeleteSpan(InsertAt(b, i, s), i, |s|) == b
  {
    var m := InsertAt(b, i, s);
    InsertAtSpec(b, i, s);
    DeleteSpanSpec(m, i, |s|);
    assert m[..i] == b[..i];
    assert m[i + |s|..] == b[i..];
    assert b == b[..i] + b[i..];
  }

  /** Re-inserting the characters a deletion removed restores the buffer. */
  lemma DeleteThenInsert(b: string, i: nat, s: string)
    requires i + |s| <= |b| && b[i..i + |s|] == s
    ensures InsertAt(DeleteSpan(b, i, |s|), i, s) == b
  {
    var m := DeleteSpan(b, i, |s|);
    DeleteSpanSpec(b, i, |s|);
    InsertAtSpec(m, i, s);
    assert m == b[..i] + b[i + |s|..];
    assert m[..i] == b[..i];
    assert m[i..] == b[i + |s|..];
    assert b == b[..i] + b[i..i + |s|] + b[i + |s|..];
  }

  /** Replaying an edit forward and then reversed is the identity, and leaves
      it in a state where it can be undone. */
  lemma ApplyThenReverse(b: string, e: Edit)
    requires Redoable(b, e)
    ensures Undoable(Apply(b, e, false), e)
    ensures Apply(Apply(b, e, false), e, true) == b
  {
    match e.action
    case Insert =>
      InsertThenDelete(b, e.index, e.chars);
    case Delete =>
      DeleteThenInsert(b, e.index, e.chars);
  }

  /** Replaying an edit reversed and then forward is the identity, and leaves
      it in a state where it can be redone. */
  lemma ReverseThenApply(b: string, e: Edit)
    requires Undoable(b, e)
    ensures Redoable(Apply(b, e, true), e)
    ensures Apply(Apply(b, e, true), e, false) == b
  {
    match e.action
    case Insert =>
      DeleteThenInsert(b, e.index, e.chars);
    case Delete =>
      var m := InsertAt(b, e.index, e.chars);
      InsertAtSpec(b, e.index, e.chars);
      assert m[e.index..e.index + |e.chars|] == e.chars;
      InsertThenDelete(b, e.index, e.chars);
  }

  function Top(s: seq<Edit>): Edit
    requires |s| > 0
  {
    s[|s| - 1]
  }

  function Pop(s: seq<Edit>): seq<Edit>
    requires |s| > 0
  {
    s[..|s| - 1]
  }

  /** `add_edit_state(edit)`: the edit goes on top of the undo list and the
      redo list is cleared; the buffer is left to the widget. */
  function Record(log: Log, e: Edit): (r: Log)
    ensures r.buffer == log.buffer
    ensures r.undo == log.undo + [e]
    ensures r.redo == []
  {
    Log(log.buffer, log.undo + [e], [])
  }

  /** A user edit as the widget and the history see it together: the widget
      changes the buffer, then the edit is recorded. */
  function Perform(log: Log, e: Edit): Log {
    Record(log.(buffer := Apply(log.buffer, e, false)), e)
  }

  /** `undo_text()`: with an empty undo list nothing changes; otherwise the
      top edit moves to the top of the redo list and is replayed reversed. */
  function Undo(log: Log): (r: Log)
    ensures |log.undo| == 0 ==> r == log
    ensures |log.undo| > 0 ==>
      var top := log.undo[|log.undo| - 1];
      && r.undo == log.undo[..|log.undo| - 1]
      && r.redo == log.redo + [top]
      && r.buffer == Apply(log.buffer, top, true)
    ensures |r.undo| + |r.redo| == |log.undo| + |log.redo|
  {
    if |log.undo| == 0 then log
    else
      var e := Top(log.undo);
      Log(Apply(log.buffer, e, true), Pop(log.undo), log.redo + [e])
  }

  /** `redo_text()`: the mirror image of `Undo`, replaying forward. */
  function Redo(log: Log): (r: Log)
    ensures |log.redo| == 0 ==> r == log
    ensures |log.redo| > 0 ==>
      var top := log.redo[|log.redo| - 1];
      && r.redo == log.redo[..|log.redo| - 1]
      && r.undo == log.undo + [top]
      && r.buffer == Apply(log.buffer, top, false)
    ensures |r.undo| + |r.redo| == |log.undo| + |log.redo|
  {
    if |log.redo| == 0 then log
    else
      var e := Top(log.redo);
      Log(Apply(log.buffer, e, false), log.undo + [e], Pop(log.redo))
  }

  /** Undo immediately followed by redo gives back both lists and the buffer,
      provided the top edit is really in effect in the buffer. */
  lemma RedoAfterUndo(log: Log)
    requires |log.undo| > 0 && Undoable(log.buffer, Top(log.undo))
    ensures Redo(Undo(log)) == log
  {
    ReverseThenApply(log.buffer, Top(log.undo));
  }

  /** Redo immediately followed by undo gives back both lists and the buffer,
      provided the top redo edit can be replayed on the buffer. */
  lemma UndoAfterRedo(log: Log)
    requires |log.redo| > 0 && Redoable(log.buffer, Top(log.redo))
    ensures Undo(Redo(log)) == log
  {
    ApplyThenReverse(log.buffer, Top(log.redo));
  }

  /** Recording a new edit throws the redo history away: redo afterwards does
      nothing. */
  lemma RedoAfterRecord(log: Log, e: Edit)
    ensures Redo(Record(log, e)) == Record(log, e)
    ensures Undo(Record(log, e)).redo == [e]
  {
  }

  // ---------------------------------------------------------------------
  // History: the two lists as one chronological sequence of edits.

  function Reversed(s: seq<Edit>): (r: seq<Edit>)
    ensures |r| == |s|
  {
    if |s| == 0 then [] else Reversed(s[1..]) + [s[0]]
  }

  lemma {:induction false} ReversedSnoc(s: seq<Edit>, e: Edit)
    ensures Reversed(s + [e]) == [e] + Reversed(s)
    decreases |s|
  {
    if |s| == 0 {
      assert [e][1..] == [];
    } else {
      assert (s + [e])[1..] == s[1..] + [e];
      ReversedSnoc(s[1..], e);
    }
  }

  /** The buffer obtained by replaying `es` forward, oldest first, on `b`. */
  function Replay(b: string, es: seq<Edit>): string
    decreases |es|
  {
    if |es| == 0 then b else Apply(Replay(b, Pop(es)), Top(es), false)
  }

  /** Every edit of `es` can be replayed forward at its turn. */
  predicate CanReplay(b: string, es: seq<Edit>)
    decreases |es|
  {
    |es| == 0 || (CanReplay(b, Pop(es)) && Redoable(Replay(b, Pop(es)), Top(es)))
  }

  lemma {:induction false} CanReplayPrefix(b: string, xs: seq<Edit>, ys: seq<Edit>)
    requires CanReplay(b, xs + ys)
    ensures CanReplay(b, xs)
    decreases |ys|
  {
    if |ys| > 0 {
      assert Pop(xs + ys) == xs + Pop(ys);
      CanReplayPrefix(b, xs, Pop(ys));
    } else {
      assert xs + ys == xs;
    }
  }

  /** Every edit the log knows of, oldest first: the undo list, then the
      redo list from its top down. */
  function History(log: Log): seq<Edit> {
    log.undo + Reversed(log.redo)
  }

  /** The log tells the truth about the buffer, starting from `origin`: the
      undo list replayed on `origin` gives the buffer, and the whole history
      replays cleanly. */
  predicate Consistent(log: Log, origin: string) {
    && CanReplay(origin, History(log))
    && Replay(origin, log.undo) == log.buffer
  }

  /** The empty history over any buffer is consistent. */
  lemma FreshConsistent(b: string)
    ensures Consistent(Log(b, [], []), b)
  {
    assert [] + Reversed([]) == [];
  }

  /** A user edit made where it can be made keeps the log consistent and
      becomes the only remaining history after the undo list. */
  lemma PerformConsistent(log: Log, origin: string, e: Edit)
    requires Consistent(log, origin)
    requires Redoable(log.buffer, e)
    ensures Consistent(Perform(log, e), origin)
  {
    CanReplayPrefix(origin, log.undo, Reversed(log.redo));
    var r := Perform(log, e);
    assert r.undo + Reversed(r.redo) == log.undo + [e];
    assert Pop(log.undo + [e]) == log.undo;
  }

  /** Undo keeps the log consistent: the history does not change, only the
      point in it. */
  lemma UndoConsistent(log: Log, origin: string)
    requires Consistent(log, origin)
    ensures Consistent(Undo(log), origin)
    ensures History(Undo(log)) == History(log)
  {
    if |log.undo| > 0 {
      var e := Top(log.undo);
      var u := Pop(log.undo);
      assert log.undo == u + [e];
      assert Undo(log) == Log(Apply(log.buffer, e, true), u, log.redo + [e]);
      UndoHistory(u, e, log.redo);
      CanReplayPrefix(origin, log.undo, Reversed(log.redo));
      UndoReplay(origin, u, e);
    }
  }

  /** Moving the top edit between the undo list and the redo list keeps the
      history in the same order. */
  lemma UndoHistory(u: seq<Edit>, e: Edit, redo: seq<Edit>)
    ensures u + Reversed(redo + [e]) == (u + [e]) + Reversed(redo)
  {
    ReversedSnoc(redo, e);
  }

  /** Reversing the last replayed edit gives the buffer before it. */
  lemma UndoReplay(origin: string, u: seq<Edit>, e: Edit)
    requires CanReplay(origin, u + [e])
    ensures Apply(Replay(origin, u + [e]), e, true) == Replay(origin, u)
  {
    assert Pop(u + [e]) == u && Top(u + [e]) == e;
    ApplyThenReverse(Replay(origin, u), e);
  }

  /** Redo keeps the log consistent, and the history with it. */
  lemma RedoConsistent(log: Log, origin: string)
    requires Consistent(log, origin)
    ensures Consistent(Redo(log), origin)
    ensures History(Redo(log)) == History(log)
  {
    if |log.redo| > 0 {
      var e := Top(log.redo);
      var r := Pop(log.redo);
      assert log.redo == r + [e];
      assert Redo(log) == Log(Apply(log.buffer, e, false), log.undo + [e], r);
      UndoHistory(log.undo, e, r);
      CanReplayPrefix(origin, log.undo + [e], Reversed(r));
      assert Pop(log.undo + [e]) == log.undo && Top(log.undo + [e]) == e;
    }
  }

  /** In a consistent log the top undo edit is in effect, so redo restores
      what undo took away. */
  lemma ConsistentUndoable(log: Log, origin: string)
    requires Consistent(log, origin) && |log.undo| > 0
    ensures Undoable(log.buffer, Top(log.undo))
  {
    CanReplayPrefix(origin, log.undo, Reversed(log.redo));
    ApplyThenReverse(Replay(origin, Pop(log.undo)), Top(log.undo));
  }

  lemma ConsistentRedoAfterUndo(log: Log, origin: string)
    requires Consistent(log, origin) && |log.undo| > 0
    ensures Redo(Undo(log)) == log
  {
    ConsistentUndoable(log, origin);
    RedoAfterUndo(log);
  }

  /** `n` presses of undo. */
  function UndoTimes(log: Log, n: nat): Log
    decreases n
  {
    if n == 0 then log else UndoTimes(Undo(log), n - 1)
  }

  /** `n` presses of redo. */
  function RedoTimes(log: Log, n: nat): Log
    decreases n
  {
    if n == 0 then log else Redo(RedoTimes(log, n - 1))
  }

  lemma {:induction false} UndoTimesLength(log: Log, n: nat)
    requires n <= |log.undo|
    ensures |UndoTimes(log, n).undo| == |log.undo| - n
    decreases n
  {
    if n > 0 {
      UndoTimesLength(Undo(log), n - 1);
    }
  }

  /** Any number of undos keeps the log consistent and the history
      unchanged; those past the undo depth do nothing. */
  lemma {:induction false} UndoTimesConsistent(log: Log, origin: string, n: nat)
    requires Consistent(log, origin)
    ensures Consistent(UndoTimes(log, n), origin)
    ensures History(UndoTimes(log, n)) == History(log)
    decreases n
  {
    if n > 0 {
      var next := Undo(log);
      UndoConsistent(log, origin);
      UndoTimesConsistent(next, origin, n - 1);
      assert UndoTimes(log, n) == UndoTimes(next, n - 1);
    }
  }

  /** The undo/redo inverse law: undoing every recorded edit returns the
      buffer to the text the history started from, and redoing as many times
      afterwards returns the whole log, buffer included, to where it was. */
  lemma {:induction false} UndoAllRedoAll(log: Log, origin: string)
    requires Consistent(log, origin)
    ensures UndoTimes(log, |log.undo|).buffer == origin
    ensures UndoTimes(log, |log.undo|).undo == []
    ensures RedoTimes(UndoTimes(log, |log.undo|), |log.undo|) == log
  {
    UndoTimesConsistent(log, origin, |log.undo|);
    UndoTimesLength(log, |log.undo|);
    RedoUndoTimes(log, origin, |log.undo|);
  }

  lemma RedoUndoTimes(log: Log, origin: string, n: nat)
    requires Consistent(log, origin) && n <= |log.undo|
    ensures RedoTimes(UndoTimes(log, n), n) == log
  {
    ConsistentRewinds(log, origin, n);
    RewindsRedoUndo(log, n);
  }

  /** Each of the next `n` undos finds its edit in effect in the buffer. */
  predicate Rewinds(log: Log, n: nat)
    decreases n
  {
    n == 0 || (|log.undo| > 0 && Undoable(log.buffer, Top(log.undo)) && Rewinds(Undo(log), n - 1))
  }

  lemma {:induction false} ConsistentRewinds(log: Log, origin: string, n: nat)
    requires Consistent(log, origin) && n <= |log.undo|
    ensures Rewinds(log, n)
    decreases n
  {
    if n > 0 {
      UndoConsistent(log, origin);
      ConsistentUndoable(log, origin);
      ConsistentRewinds(Undo(log), origin, n - 1);
    }
  }

  lemma {:induction false} RewindsRedoUndo(log: Log, n: nat)
    requires Rewinds(log, n)
    ensures RedoTimes(UndoTimes(log, n), n) == log
    decreases n
  {
    if n > 0 {
      RewindsRedoUndo(Undo(log), n - 1);
      RedoAfterUndo(log);
      var x := UndoTimes(Undo(log), n - 1);
      assert UndoTimes(log, n) == x;
      assert RedoTimes(x, n) == Redo(RedoTimes(x, n - 1));
    }
  }
}

=== FILE: font_size.dfy ===
/**
 The font-size limiter of the View menu: the current size and two counters
 of consecutive steps in one direction. At most three steps in a row go the
 same way; a step the other way starts the count afresh.
 */
module FontSize {

  /** `current_font_size`, `increase_count` and `decrease_count`. */
  datatype FontState = FontState(size: int, increaseCount: nat, decreaseCount: nat)

  /** Consecutive steps allowed in one direction. */
  const StepLimit: nat := 3

  /** The state at start-up: the widget's font size, no step taken yet. */
  function Initial(size: int): (s: FontState)
    ensures s.size == size && s.increaseCount == 0 && s.decreaseCount == 0
  {
    FontState(size, 0, 0)
  }

  /** `set_font_size(change)`: the size moves by exactly `change` when the
      step is allowed, and nothing changes otherwise; an allowed step counts
      in its own direction and clears the other count. */
  function SetFontSize(s: FontState, change: int): (r: FontState)
    ensures r == s || r.size == s.size + change
    ensures r != s <==> (change > 0 && s.increaseCount < StepLimit) || (change < 0 && s.decreaseCount < StepLimit)
    ensures change > 0 && r != s ==> r.increaseCount == s.increaseCount + 1 && r.decreaseCount == 0
    ensures change < 0 && r != s ==> r.decreaseCount == s.decreaseCount + 1 && r.increaseCount == 0
    ensures change == 0 ==> r == s
  {
    if change > 0 && s.increaseCount < StepLimit then
      FontState(s.size + change, s.increaseCount + 1, 0)
    else if change < 0 && s.decreaseCount < StepLimit then
      FontState(s.size + change, 0, s.decreaseCount + 1)
    else s
  }

  /** Neither count exceeds the limit, and at most one of them is non-zero. */
  predicate Inv(s: FontState) {
    s.increaseCount <= StepLimit && s.decreaseCount <= StepLimit
    && (s.increaseCount == 0 || s.decreaseCount == 0)
  }

  lemma InitialInv(size: int)
    ensures Inv(Initial(size))
  {
  }

  lemma SetFontSizeInv(s: FontState, change: int)
    requires Inv(s)
    ensures Inv(SetFontSize(s, change))
  {
  }

  /** The menu commands applied in order. */
  function Run(s: FontState, changes: seq<int>): FontState
    decreases |changes|
  {
    if |changes| == 0 then s else Run(SetFontSize(s, changes[0]), changes[1..])
  }

  /** Any sequence of menu commands keeps the counts within the limit, one
      of them zero, once they start so (as `InitialInv` shows they do). */
  lemma {:induction false} RunInv(s: FontState, changes: seq<int>)
    requires Inv(s)
    ensures Inv(Run(s, changes))
    decreases |changes|
  {
    if |changes| > 0 {
      SetFontSizeInv(s, changes[0]);
      RunInv(SetFontSize(s, changes[0]), changes[1..]);
    }
  }

  /** The same command `n` times in a row. */
  function Repeat(s: FontState, change: int, n: nat): FontState
    decreases n
  {
    if n == 0 then s else Repeat(SetFontSize(s, change), change, n - 1)
  }

  function Min(a: int, b: int): int {
    if a <= b then a else b
  }

  /** Repeating one step moves the size by that step only as many times as
      the count in its direction still allows, and then stops. */
  lemma {:induction false} RepeatSize(s: FontState, change: int, n: nat)
    requires Inv(s)
    ensures var r := Repeat(s, change, n);
      && (change > 0 ==>
            var m := Min(n, StepLimit - s.increaseCount);
            r.size == s.size + change * m && r.increaseCount == s.increaseCount + m
            && (m > 0 ==> r.decreaseCount == 0) && (m == 0 ==> r == s))
      && (change < 0 ==>
            var m := Min(n, StepLimit - s.decreaseCount);
            r.size == s.size + change * m && r.decreaseCount == s.decreaseCount + m
            && (m > 0 ==> r.increaseCount == 0) && (m == 0 ==> r == s))
      && (change == 0 ==> r == s)
    decreases n
  {
    if n > 0 {
      var next := SetFontSize(s, change);
      SetFontSizeInv(s, change);
      RepeatSize(next, change, n - 1);
      if next == s {
        RepeatFixed(s, change, n - 1);
      }
    }
  }

  /** A state that a step leaves alone stays put however often it is
      repeated. */
  lemma {:induction false} RepeatFixed(s: FontState, change: int, n: nat)
    requires SetFontSize(s, change) == s
    ensures Repeat(s, change, n) == s
    decreases n
  {
    if n > 0 {
      RepeatFixed(s, change, n - 1);
    }
  }

  /** After three increases in a row a fourth is refused, and a decrease is
      then allowed at once. */
  lemma Saturation(size: int)
    ensures var top := Repeat(Initial(size), 2, 3);
      && top == FontState(size + 6, 3, 0)
      && SetFontSize(top, 2) == top
      && SetFontSize(top, -2) == FontState(size + 4, 0, 1)
  {
    RepeatSize(Initial(size), 2, 3);
  }
}

=== FILE: keys.dfy ===
/**
 Which user actions become edits. `on_edit` runs on every key release and
 turns an alphanumeric key, BackSpace or Delete into one edit, read off the
 buffer at that moment; `paste_text` records the whole clipboard as one
 insert at the cursor taken before the paste.

 The widget's own reaction to a key (Tk's default class bindings, which run on
 key PRESS, before `on_edit` sees the release) is modelled by `KeyEffect`, so
 that the recorded edit can be compared with what the key really did.
 */
module Keys {
  import opened Results
  import opened EditLog
  import TkIndex

  /** The fields of a Tk event that `on_edit` reads. */
  datatype KeyEvent = KeyEvent(eventType: string, keysym: string, text: string)

  /** Tk's event type number for EnterNotify, which `on_edit` ignores. */
  const EnterNotify: string := "7"

  const ArrowKeys: seq<string> := ["Up", "Down", "Left", "Right"]

  /** Python's `str.isalnum()` restricted to ASCII letters and digits. */
  predicate IsAlnumChar(c: char) {
    ('a' <= c <= 'z') || ('A' <= c <= 'Z') || ('0' <= c <= '9')
  }

  predicate IsAlnum(s: string) {
    |s| > 0 && forall i :: 0 <= i < |s| ==> IsAlnumChar(s[i])
  }

  /** `on_edit(event)` as written, given the buffer and insertion cursor the
      handler sees. An alphanumeric key records the character just before the
      cursor as an insert there; BackSpace records the character before the
      cursor and Delete the one at it, each as a one-character delete. A key
      with nothing to read (cursor at the start, or Delete at the end), an
      arrow key, an EnterNotify event and every other key record nothing.

      A recorded insert is one whose character is in the buffer (it can be
      undone there); a recorded delete is one whose character is STILL in the
      buffer (it can be replayed there). */
  function Capture(ev: KeyEvent, b: string, cursor: nat): (r: Option<Edit>)
    requires cursor <= |b|
    ensures ev.eventType == EnterNotify || ev.keysym in ArrowKeys ==> r == None
    ensures r.Some? ==> |r.value.chars| == 1
    ensures r.Some? && r.value.action == Insert ==>
      IsAlnum(ev.text) && r.value.index + 1 == cursor && Undoable(b, r.value)
    ensures r.Some? && r.value.action == Delete ==>
      && !IsAlnum(ev.text) && Redoable(b, r.value)
      && ((ev.keysym == "BackSpace" && r.value.index + 1 == cursor)
          || (ev.keysym == "Delete" && r.value.index == cursor))
  {
    if ev.eventType == EnterNotify then None
    else if ev.keysym in ArrowKeys then None
    else if IsAlnum(ev.text) then
      if cursor == 0 then None else Some(Edit(Insert, cursor - 1, [b[cursor - 1]]))
    else if ev.keysym == "BackSpace" then
      if cursor == 0 then None else Some(Edit(Delete, cursor - 1, [b[cursor - 1]]))
    else if ev.keysym == "Delete" then
      if cursor == |b| then None else Some(Edit(Delete, cursor, [b[cursor]]))
    else None
  }

  /** The capture policy key by key. */
  lemma CapturePolicy(ev: KeyEvent, b: string, cursor: nat)
    requires cursor <= |b|
    requires ev.eventType != EnterNotify && ev.keysym !in ArrowKeys
    ensures IsAlnum(ev.text) && cursor > 0 ==>
      Capture(ev, b, cursor) == Some(Edit(Insert, cursor - 1, [b[cursor - 1]]))
    ensures !IsAlnum(ev.text) && ev.keysym == "BackSpace" ==>
      Capture(ev, b, cursor) == (if cursor == 0 then None else Some(Edit(Delete, cursor - 1, [b[cursor - 1]])))
    ensures !IsAlnum(ev.text) && ev.keysym == "Delete" ==>
      Capture(ev, b, cursor) == (if cursor == |b| then None else Some(Edit(Delete, cursor, [b[cursor]])))
    ensures !IsAlnum(ev.text) && ev.keysym != "BackSpace" && ev.keysym != "Delete" ==>
      Capture(ev, b, cursor) == None
  {
  }

  /** The buffer and cursor after Tk's default binding for a key has run. */
  datatype Typed = Typed(buffer: string, cursor: nat)

  /** A key's text that Tk types into the widget: no control character. */
  predicate Printable(s: string) {
    |s| > 0 && forall i :: 0 <= i < |s| ==> ' ' <= s[i] && s[i] != '\U{007F}'
  }

  /** The text Tk's default binding inserts for a key: its own text when that
      is printable (letters, digits, space, punctuation), a newline for
      Return, a tab for Tab, and nothing for any other key. */
  function Inserted(ev: KeyEvent): (s: string)
    ensures IsAlnum(ev.text) ==> s == ev.text
    ensures s == "" <==> !Printable(ev.text) && ev.keysym != "Return" && ev.keysym != "Tab"
  {
    if Printable(ev.text) then ev.text
    else if ev.keysym == "Return" then "\n"
    else if ev.keysym == "Tab" then "\t"
    else ""
  }

  /** Tk's default reaction to a key press: a key that types text inserts it
      at the cursor, which moves past it; otherwise BackSpace removes the
      character before the cursor and Delete the one at it. Every other key
      leaves the text alone. */
  function KeyEffect(ev: KeyEvent, b: string, cursor: nat): (r: Typed)
    requires cursor <= |b|
    ensures r.cursor <= |r.buffer|
    ensures r.buffer == b <==>
      (|| ev.eventType == EnterNotify || ev.keysym in ArrowKeys
       || (Inserted(ev) == "" && (ev.keysym != "BackSpace" || cursor == 0)
           && (ev.keysym != "Delete" || cursor == |b|)))
  {
    if ev.eventType == EnterNotify || ev.keysym in ArrowKeys then Typed(b, cursor)
    else if Inserted(ev) != "" then Typed(InsertAt(b, cursor, Inserted(ev)), cursor + |Inserted(ev)|)
    else if ev.keysym == "BackSpace" && cursor > 0 then Typed(b[..cursor - 1] + b[cursor..], cursor - 1)
    else if ev.keysym == "Delete" && cursor < |b| then Typed(b[..cursor] + b[cursor + 1..], cursor)
    else Typed(b, cursor)
  }

  /** What the source records for a key: `on_edit` is bound to
      `<KeyRelease>`, so it reads the buffer after `KeyEffect`. A single
      letter or digit is recorded as the insert it was; a key that types any
      other text changes the buffer and records nothing (see
      `SpaceUndoCounterexample`). */
  function CaptureOnRelease(ev: KeyEvent, b: string, cursor: nat): (r: Option<Edit>)
    requires cursor <= |b|
    ensures r.Some? ==> |r.value.chars| == 1
    ensures ev.eventType != EnterNotify && ev.keysym !in ArrowKeys && IsAlnum(ev.text) && |ev.text| == 1 ==>
      r == Some(Edit(Insert, cursor, ev.text))
    ensures ev.eventType != EnterNotify && ev.keysym !in ArrowKeys && ev.keysym != "BackSpace" && ev.keysym != "Delete"
            && Inserted(ev) != "" && !IsAlnum(ev.text) ==>
      r == None && KeyEffect(ev, b, cursor).buffer != b
  {
    var t := KeyEffect(ev, b, cursor);
    assert ev.eventType != EnterNotify && ev.keysym !in ArrowKeys && IsAlnum(ev.text) && |ev.text| == 1 ==>
      t.buffer[cursor] == ev.text[0] && [ev.text[0]] == ev.text;
    Capture(ev, t.buffer, t.cursor)
  }

  /** As written, BackSpace records the character BEFORE the one it removed,
      so undoing it restores the buffer only when the two happen to be equal;
      with the cursor after the first character nothing is recorded although
      a character was removed. */
  lemma BackspaceOnRelease(b: string, cursor: nat, ev: KeyEvent)
    requires 1 <= cursor <= |b|
    requires ev.eventType != EnterNotify && ev.keysym == "BackSpace" && Inserted(ev) == ""
    ensures var t := KeyEffect(ev, b, cursor);
      && t.buffer != b
      && (cursor == 1 ==> CaptureOnRelease(ev, b, cursor) == None)
      && (cursor >= 2 ==>
            && CaptureOnRelease(ev, b, cursor) == Some(Edit(Delete, cursor - 2, [b[cursor - 2]]))
            && (Apply(t.buffer, Edit(Delete, cursor - 2, [b[cursor - 2]]), true) == b
                <==> b[cursor - 2] == b[cursor - 1]))
  {
    var t := KeyEffect(ev, b, cursor);
    assert |t.buffer| == |b| - 1;
    if cursor >= 2 {
      var e := Edit(Delete, cursor - 2, [b[cursor - 2]]);
      var u := Apply(t.buffer, e, true);
      assert u == b[..cursor - 2] + [b[cursor - 2]] + b[cursor - 2..cursor - 1] + b[cursor..];
      assert u[cursor - 1] == b[cursor - 2];
      if b[cursor - 2] == b[cursor - 1] {
        assert b == b[..cursor - 2] + [b[cursor - 2]] + [b[cursor - 1]] + b[cursor..];
      }
    }
  }

  /** The smallest input that shows it: BackSpace at the end of "ab" removes
      'b' but records a deletion of 'a', and undo then yields "aa". */
  lemma BackspaceCounterexample()
    ensures var ev := KeyEvent("3", "BackSpace", "\U{0008}");
      && KeyEffect(ev, "ab", 2).buffer == "a"
      && CaptureOnRelease(ev, "ab", 2) == Some(Edit(Delete, 0, "a"))
      && Apply("a", Edit(Delete, 0, "a"), true) == "aa"
  {
    var ev := KeyEvent("3", "BackSpace", "\U{0008}");
    assert !Printable(ev.text) by { assert ev.text[0] < ' '; }
    assert ev.keysym !in ArrowKeys;
    BackspaceOnRelease("ab", 2, ev);
    assert "ab"[..0] + ['a'] + "ab"[0..1] + "ab"[2..] == "aa";
  }

  /** As written, Delete records the character AFTER the one it removed. */
  lemma DeleteOnRelease(b: string, cursor: nat, ev: KeyEvent)
    requires cursor < |b|
    requires ev.eventType != EnterNotify && ev.keysym == "Delete" && Inserted(ev) == ""
    ensures var t := KeyEffect(ev, b, cursor);
      && t.buffer != b
      && (cursor + 1 == |b| ==> CaptureOnRelease(ev, b, cursor) == None)
      && (cursor + 1 < |b| ==>
            CaptureOnRelease(ev, b, cursor) == Some(Edit(Delete, cursor, [b[cursor + 1]])))
  {
    var t := KeyEffect(ev, b, cursor);
    assert |t.buffer| == |b| - 1;
    if cursor + 1 < |b| {
      assert t.buffer[cursor] == b[cursor + 1];
    }
  }

  /** The capture the key bindings evidently intend: every key that types
      text records it as an insert at the cursor, and the deletions are read
      off the buffer BEFORE the key acts. Every change a key makes is
      recorded exactly, and nothing is recorded for a key that changes
      nothing. */
  function CaptureKeystroke(ev: KeyEvent, b: string, cursor: nat): (r: Option<Edit>)
    requires cursor <= |b|
    ensures var t := KeyEffect(ev, b, cursor);
      && (r.None? ==> t.buffer == b)
      && (r.Some? ==> Redoable(b, r.value) && Apply(b, r.value, false) == t.buffer
                      && Apply(t.buffer, r.value, true) == b)
  {
    var r :=
      if ev.eventType == EnterNotify || ev.keysym in ArrowKeys then None
      else if Inserted(ev) != "" then Some(Edit(Insert, cursor, Inserted(ev)))
      else if ev.keysym == "BackSpace" then
        if cursor == 0 then None else Some(Edit(Delete, cursor - 1, [b[cursor - 1]]))
      else if ev.keysym == "Delete" then
        if cursor == |b| then None else Some(Edit(Delete, cursor, [b[cursor]]))
      else None;
    CaptureKeystrokeExact(ev, b, cursor, r);
    r
  }

  lemma CaptureKeystrokeExact(ev: KeyEvent, b: string, cursor: nat, r: Option<Edit>)
    requires cursor <= |b|
    requires r.Some? ==> ev.eventType != EnterNotify && ev.keysym !in ArrowKeys
    requires r.Some? ==>
             || (Inserted(ev) != "" && r.value == Edit(Insert, cursor, Inserted(ev)))
             || (Inserted(ev) == "" && ev.keysym == "BackSpace" && cursor > 0
                 && r.value == Edit(Delete, cursor - 1, [b[cursor - 1]]))
             || (Inserted(ev) == "" && ev.keysym != "BackSpace" && ev.keysym == "Delete"
                 && cursor < |b| && r.value == Edit(Delete, cursor, [b[cursor]]))
    ensures r.Some? ==> Redoable(b, r.value)
    ensures r.Some? ==> Apply(b, r.value, false) == KeyEffect(ev, b, cursor).buffer
    ensures r.Some? ==> Apply(KeyEffect(ev, b, cursor).buffer, r.value, true) == b
  {
    if r.Some? {
      var e := r.value;
      if e.action == Delete {
        var i := e.index;
        assert b[i..i + 1] == e.chars;
        assert DeleteSpan(b, i, 1) == b[..i] + b[i + 1..];
      }
      ApplyThenReverse(b, e);
    }
  }

  /** For a single alphanumeric character the source already records the
      right edit: the two captures agree. */
  lemma AlnumCaptureAgrees(ev: KeyEvent, b: string, cursor: nat)
    requires cursor <= |b|
    requires ev.eventType != EnterNotify && ev.keysym !in ArrowKeys
    requires IsAlnum(ev.text) && |ev.text| == 1
    ensures CaptureOnRelease(ev, b, cursor) == CaptureKeystroke(ev, b, cursor)
  {
    var t := KeyEffect(ev, b, cursor);
    assert t.buffer[cursor] == ev.text[0];
    assert [ev.text[0]] == ev.text;
  }

  /** One key press in the editor: the widget applies the key and the
      history records the edit `CaptureKeystroke` reads off it. */
  function Keystroke(log: Log, ev: KeyEvent, cursor: nat): (r: Log)
    requires cursor <= |log.buffer|
    ensures r.buffer == KeyEffect(ev, log.buffer, cursor).buffer
  {
    match CaptureKeystroke(ev, log.buffer, cursor)
    case None => log
    case Some(e) => Perform(log, e)
  }

  /** Key presses keep the history truthful, so a later undo sequence
      unwinds them exactly (see `EditLog.UndoAllRedoAll`). */
  lemma KeystrokeConsistent(log: Log, origin: string, ev: KeyEvent, cursor: nat)
    requires cursor <= |log.buffer|
    requires Consistent(log, origin)
    ensures Consistent(Keystroke(log, ev, cursor), origin)
  {
    var c := CaptureKeystroke(ev, log.buffer, cursor);
    if c.Some? {
      PerformConsistent(log, origin, c.value);
    }
  }

  /** `paste_text`: an empty clipboard does nothing; otherwise the whole
      clipboard is one insert edit at the cursor read before the paste. */
  function PasteEdit(cursor: nat, clipboard: string): (r: Option<Edit>)
    ensures r.None? <==> clipboard == ""
    ensures r.Some? ==> r.value.action == Insert && r.value.index == cursor && r.value.chars == clipboard
  {
    if clipboard == "" then None else Some(Edit(Insert, cursor, clipboard))
  }

  /** A paste as the widget and the history see it: the clipboard lands at
      the cursor, and a single undo takes all of it away again. */
  function Paste(log: Log, cursor: nat, clipboard: string): (r: Log)
    requires cursor <= |log.buffer|
    ensures r.buffer == InsertAt(log.buffer, cursor, clipboard)
    ensures clipboard != "" ==> Undo(r).buffer == log.buffer && Undo(r).undo == log.undo
    ensures clipboard != "" ==> r.redo == []
    ensures clipboard == "" ==> r == log
  {
    match PasteEdit(cursor, clipboard)
    case None =>
      assert InsertAt(log.buffer, cursor, "") == log.buffer;
      log
    case Some(e) =>
      InsertThenDelete(log.buffer, cursor, clipboard);
      Perform(log, e)
  }

  /** A paste keeps the history truthful, so the undo/redo inverse law
      (`EditLog.UndoAllRedoAll`) covers pastes too. */
  lemma PasteConsistent(log: Log, origin: string, cursor: nat, clipboard: string)
    requires cursor <= |log.buffer|
    requires Consistent(log, origin)
    ensures Consistent(Paste(log, cursor, clipboard), origin)
  {
    if clipboard != "" {
      PerformConsistent(log, origin, Edit(Insert, cursor, clipboard));
    }
  }

  /** One key press in the editor as written: the widget applies the key,
      and the history records what `on_edit` reads off the result. */
  function KeystrokeOnRelease(log: Log, ev: KeyEvent, cursor: nat): (r: Log)
    requires cursor <= |log.buffer|
    ensures r.buffer == KeyEffect(ev, log.buffer, cursor).buffer
    ensures CaptureOnRelease(ev, log.buffer, cursor).None? ==> r.undo == log.undo && r.redo == log.redo
    ensures CaptureOnRelease(ev, log.buffer, cursor).Some? ==>
      r.undo == log.undo + [CaptureOnRelease(ev, log.buffer, cursor).value] && r.redo == []
  {
    var t := KeyEffect(ev, log.buffer, cursor);
    match CaptureOnRelease(ev, log.buffer, cursor)
    case None => log.(buffer := t.buffer)
    case Some(e) => Record(log.(buffer := t.buffer), e)
  }

  /** Typing "b" into an empty buffer, moving back to the start and typing
      a space: the space is not recorded, so undo then removes the space
      instead of the "b" and leaves "b" behind. */
  lemma SpaceUndoCounterexample()
    ensures var typed := KeystrokeOnRelease(Log("", [], []), KeyEvent("3", "b", "b"), 0);
      var spaced := KeystrokeOnRelease(typed, KeyEvent("3", "space", " "), 0);
      && typed == Log("b", [Edit(Insert, 0, "b")], [])
      && spaced == Log(" b", [Edit(Insert, 0, "b")], [])
      && Undo(spaced).buffer == "b"
  {
    var b := KeyEvent("3", "b", "b");
    var sp := KeyEvent("3", "space", " ");
    assert IsAlnum(b.text) by { assert IsAlnumChar(b.text[0]); }
    assert b.keysym !in ArrowKeys && sp.keysym !in ArrowKeys;
    assert Printable(sp.text) && !IsAlnum(sp.text) by { assert !IsAlnumChar(sp.text[0]); }
    var typed := KeystrokeOnRelease(Log("", [], []), b, 0);
    assert typed.buffer == "b";
    var spaced := KeystrokeOnRelease(typed, sp, 0);
    assert spaced.buffer == " " + "b";
    assert DeleteSpan(" b", 0, 1) == "b";
  }

  /** The same keys through the corrected capture: both are recorded, and
      two undos give back the empty buffer. */
  lemma SpaceUndoCorrected()
    ensures var typed := Keystroke(Log("", [], []), KeyEvent("3", "b", "b"), 0);
      var spaced := Keystroke(typed, KeyEvent("3", "space", " "), 0);
      && spaced == Log(" b", [Edit(Insert, 0, "b"), Edit(Insert, 0, " ")], [])
      && Undo(Undo(spaced)).buffer == ""
  {
    var b := KeyEvent("3", "b", "b");
    var sp := KeyEvent("3", "space", " ");
    assert Printable(b.text) && Printable(sp.text);
    TypeAtCursor(Log("", [], []), b, 0);
    var typed := Log("b", [Edit(Insert, 0, "b")], []);
    assert InsertAt("", 0, "b") == "b";
    TypeAtCursor(typed, sp, 0);
    assert InsertAt("b", 0, " ") == " b";
    var spaced := Log(" b", [Edit(Insert, 0, "b"), Edit(Insert, 0, " ")], []);
    assert DeleteSpan(" b", 0, 1) == "b";
    assert Undo(spaced) == Log("b", [Edit(Insert, 0, "b")], [Edit(Insert, 0, " ")]);
    assert DeleteSpan("b", 0, 1) == "";
  }

  /** A key that types printable text records it as one insert at the
      cursor. */
  lemma TypeAtCursor(log: Log, ev: KeyEvent, cursor: nat)
    requires cursor <= |log.buffer|
    requires ev.eventType != EnterNotify && ev.keysym !in ArrowKeys && Printable(ev.text)
    ensures Keystroke(log, ev, cursor) == Log(InsertAt(log.buffer, cursor, ev.text), log.undo + [Edit(Insert, cursor, ev.text)], [])
  {
  }

  // ---------------------------------------------------------------------
  // Positions as `on_edit` stores them: Tk index strings resolved on replay.

  /** An edit as `on_edit` stores it: the position is a Tk index, which is
      resolved only when `apply_edit` replays the edit. */
  datatype StoredEdit = StoredEdit(action: Action, index: TkIndex.Index, chars: string)

  /** `apply_edit(edit, reverse)` on a stored edit: the index is resolved
      against the buffer as it is when the edit runs. The end of a deleted
      span, `f"{index}+{len(chars)}c"`, is that offset moved by the length
      (`TkIndex.ResolveExtend`), which is the span `Apply` removes. */
  function ApplyStored(b: string, e: StoredEdit, reverse: bool): string {
    Apply(b, Edit(e.action, TkIndex.Resolve(b, e.index), e.chars), reverse)
  }

  /** A stored edit with its index resolved on buffer `b`. */
  function ResolvedOn(b: string, r: Option<StoredEdit>): Option<Edit> {
    match r
    case None => None
    case Some(e) => Some(Edit(e.action, TkIndex.Resolve(b, e.index), e.chars))
  }

  /** `on_edit` as written, with the positions it stores: a letter or a
      BackSpace stores `f"{index}-1c"` and Delete stores `index`, where
      `index` is `text.index(tk.INSERT)`. Resolved on the buffer it was read
      from, the stored edit is the one `Capture` records. */
  function CaptureStored(ev: KeyEvent, b: string, cursor: nat): (r: Option<StoredEdit>)
    requires cursor <= |b|
    ensures ResolvedOn(b, r) == Capture(ev, b, cursor)
    ensures r.Some? && (r.value.action == Insert || ev.keysym == "BackSpace") ==>
      r.value.index == TkIndex.IndexOf(b, cursor).(shifts := [-1])
  {
    var here := TkIndex.IndexOf(b, cursor);
    var back := here.(shifts := [-1]);
    if ev.eventType == EnterNotify then None
    else if ev.keysym in ArrowKeys then None
    else if IsAlnum(ev.text) then
      if cursor == 0 then None
      else
        TkIndex.ResolveBack(b, cursor);
        Some(StoredEdit(Insert, back, [b[cursor - 1]]))
    else if ev.keysym == "BackSpace" then
      if cursor == 0 then None
      else
        TkIndex.ResolveBack(b, cursor);
        Some(StoredEdit(Delete, back, [b[cursor - 1]]))
    else if ev.keysym == "Delete" then
      if cursor == |b| then None
      else
        TkIndex.ResolveIndexOf(b, cursor);
        Some(StoredEdit(Delete, here, [b[cursor]]))
    else None
  }

  /** Typing two letters, say "a" and then "b", into an empty buffer: the
      second key stores `"1.2-1c"`. Undo resolves it on "ab" to offset 1 and
      leaves "a"; redo resolves the same string on "a", where column 2 is past
      the end of the line and stands for its newline at 1, so "b" goes back
      at 0 and the buffer becomes "ba". */
  lemma LetterRedoCounterexample(a: KeyEvent, b: KeyEvent)
    requires a.eventType != EnterNotify && a.keysym !in ArrowKeys && IsAlnum(a.text) && |a.text| == 1
    requires b.eventType != EnterNotify && b.keysym !in ArrowKeys && IsAlnum(b.text) && |b.text| == 1
    ensures var typed := KeyEffect(a, "", 0);
      var both := KeyEffect(b, typed.buffer, typed.cursor);
      var e := CaptureStored(b, both.buffer, both.cursor);
      && both.buffer == a.text + b.text && both.cursor == 2
      && e == Some(StoredEdit(Insert, TkIndex.Index(1, 2, [-1]), b.text))
      && ApplyStored(a.text + b.text, e.value, true) == a.text
      && ApplyStored(a.text, e.value, false) == b.text + a.text
  {
    TypeTwoLetters(a, b);
    var ab := a.text + b.text;
    assert IsAlnumChar(a.text[0]) && IsAlnumChar(b.text[0]);
    assert ab[0] == a.text[0] && ab[1] == b.text[0];
    StoreSecondLetter(b, ab);
    ReplaySecondLetter(a.text, b.text);
  }

  /** Two letters typed into an empty buffer, one after the other. */
  lemma TypeTwoLetters(a: KeyEvent, b: KeyEvent)
    requires a.eventType != EnterNotify && a.keysym !in ArrowKeys && IsAlnum(a.text) && |a.text| == 1
    requires b.eventType != EnterNotify && b.keysym !in ArrowKeys && IsAlnum(b.text) && |b.text| == 1
    ensures KeyEffect(a, "", 0) == Typed(a.text, 1)
    ensures KeyEffect(b, a.text, 1) == Typed(a.text + b.text, 2)
  {
    assert IsAlnumChar(a.text[0]) && IsAlnumChar(b.text[0]);
    InsertAtSpec("", 0, a.text);
    InsertAtSpec(a.text, 1, b.text);
  }

  /** What `on_edit` stores for the second of two letters. */
  lemma StoreSecondLetter(b: KeyEvent, ab: string)
    requires b.eventType != EnterNotify && b.keysym !in ArrowKeys && IsAlnum(b.text) && |b.text| == 1
    requires |ab| == 2 && ab[0] != '\n' && ab[1] == b.text[0]
    ensures CaptureStored(b, ab, 2) == Some(StoredEdit(Insert, TkIndex.Index(1, 2, [-1]), b.text))
  {
    assert ab[1] != '\n' by { assert IsAlnumChar(b.text[0]); }
    TypedLetterIndex(ab);
    assert [ab[1]] == b.text;
  }

  /** Undo and redo of the stored `"1.2-1c"` insert of `y` after `x`. */
  lemma ReplaySecondLetter(x: string, y: string)
    requires |x| == 1 && |y| == 1 && x[0] != '\n' && y[0] != '\n'
    ensures var e := StoredEdit(Insert, TkIndex.Index(1, 2, [-1]), y);
      && ApplyStored(x + y, e, true) == x
      && ApplyStored(x, e, false) == y + x
  {
    var xy := x + y;
    var i := TkIndex.Index(1, 2, [-1]);
    TypedLetterIndex(xy);
    assert TkIndex.Resolve(xy, i) == 1 by { TkIndex.ResolveBack(xy, 2); }
    DeleteSpanSpec(xy, 1, 1);
    assert DeleteSpan(xy, 1, 1) == x;
    assert TkIndex.Resolve(x, i) == 0 by { PastLineEnd(x, i); }
    InsertAtSpec(x, 0, y);
    assert InsertAt(x, 0, y) == y + x;
  }

  /** On a two-character line, the cursor after both sits at line 1,
      column 2. */
  lemma TypedLetterIndex(s: string)
    requires |s| == 2 && s[0] != '\n' && s[1] != '\n'
    ensures TkIndex.IndexOf(s, 2) == TkIndex.Index(1, 2, [])
  {
    assert TkIndex.LineBegin(s, 1) == 0 && TkIndex.LineBegin(s, 2) == 0;
    assert TkIndex.LineOf(s, 1) == 1 && TkIndex.LineOf(s, 2) == 1;
  }

  /** On a one-character line with no newline, any column past the first
      stands for the end, and `-1c` then moves back to the start. */
  lemma PastLineEnd(s: string, i: TkIndex.Index)
    requires |s| == 1 && s[0] != '\n'
    requires i.line == 1 && i.col >= 1 && i.shifts == [-1]
    ensures TkIndex.Resolve(s, i) == 0
  {
    assert TkIndex.LineEnd(s, 0) == 1 by { assert TkIndex.LineEnd(s, 1) == 1; }
    assert [-1][1..] == [];
  }

  /** The corrected capture stores its position as an index fixed when the
      key is captured (`text.index` of the offset, with no modifier). That
      index resolves to the recorded offset both on the buffer before the
      key, where redo replays the edit, and on the buffer after it, where
      undo reverses it, so the offsets `EditLog` works with are the ones Tk
      would use. */
  lemma RecordedIndexResolves(ev: KeyEvent, b: string, cursor: nat)
    requires cursor <= |b|
    requires CaptureKeystroke(ev, b, cursor).Some?
    ensures var e := CaptureKeystroke(ev, b, cursor).value;
      var t := KeyEffect(ev, b, cursor).buffer;
      && e.index <= |b| && e.index <= |t|
      && TkIndex.Resolve(b, TkIndex.IndexOf(b, e.index)) == e.index
      && TkIndex.Resolve(t, TkIndex.IndexOf(b, e.index)) == e.index
  {
    var e := CaptureKeystroke(ev, b, cursor).value;
    var t := KeyEffect(ev, b, cursor).buffer;
    ApplySpec(b, e, false);
    assert t == Apply(b, e, false);
    TkIndex.ResolveIndexOf(b, e.index);
    TkIndex.ResolveAgreeing(b, t, e.index);
  }
}

=== FILE: results.dfy ===
/** Optional values and failure-carrying results, for the editor's dropped
    keystrokes and for the `ValueError` a malformed metadata line raises. */
module Results {

  datatype Option<+T> = None | Some(value: T)

  datatype Result<+T, +E> = Ok(value: T) | Err(error: E)
}

=== FILE: strings.dfy ===
/**
 The few Python string operations the editor relies on, over `seq<char>`:
 `str.split(sep)` with a one-character separator, `str.strip()` with no
 argument, and `str.endswith(suffix)`.
 */
module Strings {

  /** Python's `str.isspace()` for one code point: the characters `str.strip()`
      removes when called without an argument. */
  predicate IsSpace(c: char) {
    var n := c as int;
    || (0x09 <= n <= 0x0D)
    || (0x1C <= n <= 0x20)
    || n == 0x85 || n == 0xA0 || n == 0x1680
    || (0x2000 <= n <= 0x200A)
    || n == 0x2028 || n == 0x2029 || n == 0x202F || n == 0x205F || n == 0x3000
  }

  /** Number of occurrences of `c` in `s`. */
  function Count(s: string, c: char): nat {
    if |s| == 0 then 0
    else (if s[0] == c then 1 else 0) + Count(s[1..], c)
  }

  lemma CountZero(s: string, c: char)
    ensures Count(s, c) == 0 <==> c !in s
  {
    if |s| > 0 {
      CountZero(s[1..], c);
      assert s == [s[0]] + s[1..];
    }
  }

  /** The inverse of `Split`: the pieces glued back with `sep` between them. */
  function Join(pieces: seq<string>, sep: char): string {
    if |pieces| == 0 then ""
    else if |pieces| == 1 then pieces[0]
    else pieces[0] + [sep] + Join(pieces[1..], sep)
  }

  lemma Join3(a: string, b: string, c: string, sep: char)
    ensures Join([a, b, c], sep) == a + [sep] + b + [sep] + c
  {
    assert [a, b, c][1..] == [b, c];
    assert [b, c][1..] == [c];
    assert Join([c], sep) == c;
    assert Join([b, c], sep) == b + [sep] + c;
    assert a + [sep] + (b + [sep] + c) == a + [sep] + b + [sep] + c;
  }

  /** Python's `s.split(sep)`: always at least one piece (see `SplitSpec`). */
  function Split(s: string, sep: char): (r: seq<string>)
    ensures |r| > 0
    decreases |s|
  {
    if |s| == 0 then [""]
    else
      var rest := Split(s[1..], sep);
      if s[0] == sep then
        assert s == [sep] + s[1..];
        [""] + rest
      else
        assert s == [s[0]] + s[1..];
        [[s[0]] + rest[0]] + rest[1..]
  }

  /** `s.split(sep)` has one more piece than `s` has separators, none of the
      pieces holds a separator, and gluing them back with `sep` gives `s`. */
  lemma {:induction false} SplitSpec(s: string, sep: char)
    ensures var r := Split(s, sep);
      && |r| == Count(s, sep) + 1
      && (forall k :: 0 <= k < |r| ==> sep !in r[k])
      && Join(r, sep) == s
    decreases |s|
  {
    if |s| > 0 {
      SplitSpec(s[1..], sep);
      var rest := Split(s[1..], sep);
      var r := Split(s, sep);
      if s[0] == sep {
        assert s == [sep] + s[1..];
        assert r == [""] + rest;
        assert r[1..] == rest;
        if |rest| > 1 {
          assert Join(r, sep) == "" + [sep] + Join(rest, sep);
        }
      } else {
        assert s == [s[0]] + s[1..];
        assert r == [[s[0]] + rest[0]] + rest[1..];
        forall k | 0 <= k < |r|
          ensures sep !in r[k]
        {
          if k > 0 { assert r[k] == rest[k]; }
        }
        if |rest| > 1 {
          assert r[1..] == rest[1..];
          assert Join(r, sep) == [s[0]] + rest[0] + [sep] + Join(rest[1..], sep);
          assert Join(rest, sep) == rest[0] + [sep] + Join(rest[1..], sep);
        }
      }
    }
  }

  /** A string without the separator splits into itself alone. */
  lemma SplitNoSep(s: string, sep: char)
    requires sep !in s
    ensures Split(s, sep) == [s]
  {
    CountZero(s, sep);
    SplitSpec(s, sep);
    var r := Split(s, sep);
    assert |r| == 1;
  }

  /** Splitting a concatenation at a separator splits each side apart. */
  lemma {:induction false} SplitAppend(a: string, b: string, sep: char)
    ensures Split(a + [sep] + b, sep) == Split(a, sep) + Split(b, sep)
    decreases |a|
  {
    var s := a + [sep] + b;
    SplitFirst(s, sep);
    if |a| == 0 {
      assert s[0] == sep && s[1..] == b;
    } else {
      assert s[0] == a[0] && s[1..] == a[1..] + [sep] + b;
      SplitFirst(a, sep);
      SplitAppend(a[1..], b, sep);
      if a[0] != sep {
        FirstPieceCons([a[0]], Split(a[1..], sep), Split(b, sep));
      }
    }
  }

  /** One step of `Split`: the first character either ends the first piece
      or joins it. */
  lemma SplitFirst(s: string, sep: char)
    requires |s| > 0
    ensures var rest := Split(s[1..], sep);
      Split(s, sep) == if s[0] == sep then [""] + rest else [[s[0]] + rest[0]] + rest[1..]
  {
  }

  /** Extending the first piece of a list of pieces commutes with appending
      more pieces. */
  lemma FirstPieceCons(p: string, front: seq<string>, back: seq<string>)
    requires |front| > 0
    ensures [p + (front + back)[0]] + (front + back)[1..] == ([p + front[0]] + front[1..]) + back
  {
    assert (front + back)[0] == front[0];
    assert (front + back)[1..] == front[1..] + back;
  }

  /** `Split` undoes `Join` for any non-empty list of separator-free pieces. */
  lemma {:induction false} SplitJoin(pieces: seq<string>, sep: char)
    requires |pieces| > 0
    requires forall k :: 0 <= k < |pieces| ==> sep !in pieces[k]
    ensures Split(Join(pieces, sep), sep) == pieces
    decreases |pieces|
  {
    if |pieces| == 1 {
      SplitNoSep(pieces[0], sep);
    } else {
      SplitJoin(pieces[1..], sep);
      SplitAppend(pieces[0], Join(pieces[1..], sep), sep);
      SplitNoSep(pieces[0], sep);
      assert [pieces[0]] + pieces[1..] == pieces;
    }
  }

  /** The text after the last separator, or the whole string when there is
      none: a separator-free suffix of `s` that is all of `s` or follows a
      separator. */
  function LastPiece(s: string, sep: char): (r: string)
    ensures sep !in r
    ensures |r| <= |s| && r == s[|s| - |r|..]
    ensures |r| < |s| ==> s[|s| - |r| - 1] == sep
    decreases |s|
  {
    if |s| == 0 then ""
    else if s[|s| - 1] == sep then ""
    else
      var front := LastPiece(s[..|s| - 1], sep);
      assert s[..|s| - 1][|s| - 1 - |front|..] + [s[|s| - 1]] == s[|s| - |front| - 1..];
      front + [s[|s| - 1]]
  }

  /** The piece after a separator that is followed by no other one. */
  lemma {:induction false} LastPieceAfterSep(a: string, b: string, sep: char)
    requires sep !in b
    ensures LastPiece(a + [sep] + b, sep) == b
    decreases |b|
  {
    var s := a + [sep] + b;
    if |b| > 0 {
      assert s[..|s| - 1] == a + [sep] + b[..|b| - 1];
      LastPieceAfterSep(a, b[..|b| - 1], sep);
      assert b == b[..|b| - 1] + [b[|b| - 1]];
    } else {
      assert s[|s| - 1] == sep;
    }
  }

  /** `LastPiece` is Python's `s.split(sep)[-1]`. */
  lemma LastPieceOfSplit(s: string, sep: char)
    ensures var pieces := Split(s, sep); pieces[|pieces| - 1] == LastPiece(s, sep)
  {
    var b := LastPiece(s, sep);
    if |b| == |s| {
      assert s == b;
      SplitNoSep(s, sep);
    } else {
      var a := s[..|s| - |b| - 1];
      assert s == a + [sep] + b;
      SplitAppend(a, b, sep);
      SplitNoSep(b, sep);
    }
  }

  /** Python's `s.endswith(suffix)`. */
  predicate EndsWith(s: string, suffix: string) {
    |suffix| <= |s| && s[|s| - |suffix|..] == suffix
  }

  /** Python's `s.startswith("#")` for one character. */
  predicate StartsWith(s: string, c: char) {
    |s| > 0 && s[0] == c
  }

  /** Leading whitespace removed: a suffix of `s`, everything cut off is
      whitespace, and the result does not begin with whitespace. */
  function StripLeft(s: string): (r: string)
    ensures |r| <= |s| && r == s[|s| - |r|..]
    ensures forall k :: 0 <= k < |s| - |r| ==> IsSpace(s[k])
    ensures |r| > 0 ==> !IsSpace(r[0])
    decreases |s|
  {
    if |s| > 0 && IsSpace(s[0]) then StripLeft(s[1..]) else s
  }

  /** Trailing whitespace removed: a prefix of `s`, everything cut off is
      whitespace, and the result does not end with whitespace. */
  function StripRight(s: string): (r: string)
    ensures |r| <= |s| && r == s[..|r|]
    ensures forall k :: |r| <= k < |s| ==> IsSpace(s[k])
    ensures |r| > 0 ==> !IsSpace(r[|r| - 1])
    decreases |s|
  {
    if |s| > 0 && IsSpace(s[|s| - 1]) then StripRight(s[..|s| - 1]) else s
  }

  /** Python's `s.strip()`: a piece of `s` that neither begins nor ends with
      whitespace (see `StripKeepsText` for what it keeps). */
  function Strip(s: string): (r: string)
    ensures |r| <= |s|
    ensures |r| > 0 ==> !IsSpace(r[0]) && !IsSpace(r[|r| - 1])
  {
    StripRight(StripLeft(s))
  }

  /** Stripping keeps every character that is not whitespace. */
  lemma StripKeepsText(s: string)
    ensures forall c :: !IsSpace(c) ==> (c in Strip(s) <==> c in s)
  {
    StripLeftKeeps(s);
    StripRightKeeps(StripLeft(s));
  }

  lemma {:induction false} StripLeftKeeps(s: string)
    ensures forall c :: !IsSpace(c) ==> (c in StripLeft(s) <==> c in s)
    decreases |s|
  {
    if |s| > 0 && IsSpace(s[0]) {
      StripLeftKeeps(s[1..]);
      assert s == [s[0]] + s[1..];
    }
  }

  lemma {:induction false} StripRightKeeps(s: string)
    ensures forall c :: !IsSpace(c) ==> (c in StripRight(s) <==> c in s)
    decreases |s|
  {
    if |s| > 0 && IsSpace(s[|s| - 1]) {
      StripRightKeeps(s[..|s| - 1]);
      assert s == s[..|s| - 1] + [s[|s| - 1]];
    }
  }

  /** Stripping a string that neither begins nor ends with whitespace leaves
      it unchanged. */
  lemma StripTrimmed(s: string)
    requires |s| > 0 ==> !IsSpace(s[0]) && !IsSpace(s[|s| - 1])
    ensures Strip(s) == s
  {
  }
}

=== FILE: tk_index.dfy ===
/**
 Tk text indices of the form `line.char`, optionally followed by character
 modifiers such as `-1c`, and how the widget resolves them against a buffer.
 `on_edit` stores a letter's and a BackSpace's position as the string
 `f"{index}-1c"`; Tk resolves that string only when `apply_edit` hands it
 to `insert` or `delete`, against the buffer as it is then.

 Offsets are into the buffer without Tk's trailing newline, so a position
 past the last character stands for the end.
 */
module TkIndex {

  /** `line.col` followed by character modifiers applied in order:
      `"1.2-1c"` is `Index(1, 2, [-1])`. Lines count from 1 and columns
      from 0; line 0 is taken as line 1. */
  datatype Index = Index(line: nat, col: nat, shifts: seq<int>)

  /** The end of the line from offset `s` on: the offset of its newline, or
      the end of the buffer. */
  function LineEnd(b: string, s: nat): (r: nat)
    requires s <= |b|
    ensures s <= r <= |b|
    ensures forall k :: s <= k < r ==> b[k] != '\n'
    ensures r < |b| ==> b[r] == '\n'
    decreases |b| - s
  {
    if s == |b| || b[s] == '\n' then s else LineEnd(b, s + 1)
  }

  /** The start of the line holding offset `c`: just after the last newline
      before it. */
  function LineBegin(b: string, c: nat): (r: nat)
    requires c <= |b|
    ensures r <= c
    ensures forall k :: r <= k < c ==> b[k] != '\n'
    ensures r > 0 ==> b[r - 1] == '\n'
  {
    if c == 0 then 0 else if b[c - 1] == '\n' then c else LineBegin(b, c - 1)
  }

  /** The line number of offset `c`: one more than the newlines before it. */
  function LineOf(b: string, c: nat): (r: nat)
    requires c <= |b|
    ensures r >= 1
  {
    if c == 0 then 1 else LineOf(b, c - 1) + (if b[c - 1] == '\n' then 1 else 0)
  }

  /** The offset where line `line` starts; a line past the last one stands
      for the end. */
  function LineStart(b: string, line: nat): (r: nat)
    ensures r <= |b|
  {
    if line <= 1 then 0
    else
      var e := LineEnd(b, LineStart(b, line - 1));
      if e == |b| then |b| else e + 1
  }

  /** One `+Nc` or `-Nc` modifier: moves `p` by `d` characters, stopping at
      either end of a buffer of length `n`. */
  function Shift(n: nat, p: nat, d: int): (r: nat)
    requires p <= n
    ensures r <= n
    ensures 0 <= p + d <= n ==> r == p + d
    ensures p + d < 0 ==> r == 0
    ensures p + d > n ==> r == n
  {
    if p + d < 0 then 0 else if p + d > n then n else p + d
  }

  function ShiftAll(n: nat, p: nat, ds: seq<int>): (r: nat)
    requires p <= n
    ensures r <= n
    decreases |ds|
  {
    if |ds| == 0 then p else ShiftAll(n, Shift(n, p, ds[0]), ds[1..])
  }

  /** The offset Tk gives index `i` on buffer `b`. A column past the end of
      its line is clamped to the line's length, so it stands for the line's
      newline; the modifiers then move the position, each stopping at the
      ends of the buffer. */
  function Resolve(b: string, i: Index): (r: nat)
    ensures r <= |b|
  {
    var s := LineStart(b, i.line);
    var len := LineEnd(b, s) - s;
    ShiftAll(|b|, s + (if i.col <= len then i.col else len), i.shifts)
  }

  /** `text.index(pos)` for offset `c`: the `line.col` form of the position,
      with no modifiers. */
  function IndexOf(b: string, c: nat): (r: Index)
    requires c <= |b|
    ensures r.shifts == [] && r.line >= 1 && r.col <= c
  {
    Index(LineOf(b, c), c - LineBegin(b, c), [])
  }

  /** The line number of an offset leads to the start of its line. */
  lemma {:induction false} LineStartOf(b: string, c: nat)
    requires c <= |b|
    ensures LineStart(b, LineOf(b, c)) == LineBegin(b, c)
    decreases c
  {
    if c > 0 {
      LineStartOf(b, c - 1);
      if b[c - 1] == '\n' {
        LineStartAfterNewline(b, c);
      }
    }
  }

  /** Past a newline a new line starts. */
  lemma LineStartAfterNewline(b: string, c: nat)
    requires 0 < c <= |b| && b[c - 1] == '\n'
    requires LineStart(b, LineOf(b, c - 1)) == LineBegin(b, c - 1)
    ensures LineStart(b, LineOf(b, c)) == c
  {
    var l := LineOf(b, c - 1);
    assert LineOf(b, c) == l + 1;
    LineEndAt(b, LineBegin(b, c - 1), c - 1);
  }

  /** The line from `s` ends at the first newline from `s` on. */
  lemma LineEndAt(b: string, s: nat, k: nat)
    requires s <= k < |b| && b[k] == '\n'
    requires forall j :: s <= j < k ==> b[j] != '\n'
    ensures LineEnd(b, s) == k
  {
  }

  /** Resolving the index of an offset on the same buffer gives the offset
      back. */
  lemma ResolveIndexOf(b: string, c: nat)
    requires c <= |b|
    ensures Resolve(b, IndexOf(b, c)) == c
  {
    LineStartOf(b, c);
    var s := LineBegin(b, c);
    assert LineEnd(b, s) >= c;
  }

  /** The line and column of an offset depend only on the text before it. */
  lemma {:induction false} IndexOfPrefix(b1: string, b2: string, c: nat)
    requires c <= |b1| && c <= |b2| && b1[..c] == b2[..c]
    ensures IndexOf(b1, c) == IndexOf(b2, c)
    decreases c
  {
    if c > 0 {
      assert b1[c - 1] == b1[..c][c - 1] == b2[..c][c - 1] == b2[c - 1];
      assert b1[..c - 1] == b1[..c][..c - 1] == b2[..c][..c - 1] == b2[..c - 1];
      IndexOfPrefix(b1, b2, c - 1);
    }
  }

  /** An index taken on one buffer resolves to the same offset on every
      buffer that has the same text before it. */
  lemma ResolveAgreeing(b1: string, b2: string, c: nat)
    requires c <= |b1| && c <= |b2| && b1[..c] == b2[..c]
    ensures Resolve(b2, IndexOf(b1, c)) == c
  {
    IndexOfPrefix(b1, b2, c);
    ResolveIndexOf(b2, c);
  }

  /** `f"{index}-1c"` resolved on the buffer `index` was taken from is the
      offset before it. */
  lemma ResolveBack(b: string, c: nat)
    requires 0 < c <= |b|
    ensures Resolve(b, IndexOf(b, c).(shifts := [-1])) == c - 1
  {
    ResolveIndexOf(b, c);
    assert [-1][1..] == [];
  }

  /** A further modifier moves the resolved position: `"{index}+{n}c"`
      resolves to the resolution of `index` moved by `n`, which is the end
      of the span that `apply_edit` deletes. */
  lemma {:induction false} ResolveExtend(b: string, i: Index, d: int)
    ensures Resolve(b, i.(shifts := i.shifts + [d])) == Shift(|b|, Resolve(b, i), d)
  {
    var s := LineStart(b, i.line);
    var len := LineEnd(b, s) - s;
    ShiftAllSnoc(|b|, s + (if i.col <= len then i.col else len), i.shifts, d);
  }

  lemma {:induction false} ShiftAllSnoc(n: nat, p: nat, ds: seq<int>, d: int)
    requires p <= n
    ensures ShiftAll(n, p, ds + [d]) == Shift(n, ShiftAll(n, p, ds), d)
    decreases |ds|
  {
    if |ds| == 0 {
      assert ([] + [d])[1..] == [];
    } else {
      assert (ds + [d])[1..] == ds[1..] + [d];
      ShiftAllSnoc(n, Shift(n, p, ds[0]), ds[1..], d);
    }
  }
}
